=== FILE: README.md ===
# FreightFlow front-end core, modelled in Dafny

FreightFlow is a static freight-booking front end. This project models the parts of it that carry real logic:

- **The offline cache manager** (`service-worker.js`). It covers:
  - how a fetch is classified;
  - the three retrieval strategies: cache-first, network-first, and cache-first for images;
  - the install batch and the activate-time pruning of old partitions;
  - the message handler;
  - the background replay of pending bookings.

  The browser's cache storage is a sequence of named partitions in creation order. `caches.match` searches them in that order (`CacheStore`). Entries are keyed by absolute request URL with its fragment cut off (`CacheStore.Key`), since the Cache API compares URLs with fragments excluded. A string the worker hands to `addAll` or `caches.match` (`'/index.html'`, `'/offline.html'`) is first resolved on the worker's origin. The origin is a parameter: an http or https scheme, host and port, so it never carries a fragment (`ServiceWorker.Origin`). Strings are resolved against the worker script's own URL, the origin followed by `/service-worker.js`. A network attempt is an abstract outcome: a response of any status, or a thrown error.

  The fetch handler picks its strategy by substring containment against the manifest. The manifest holds `'/'`, and every http or https URL contains a slash after its scheme. So every intercepted request is served cache-first into the static partition, API calls included (`InterceptedIsCacheFirst`). The network-first and image strategies are modelled as written, but the handler never reaches them.
- **The truck listing** (`filters.js`). This is the filter predicate (price bounds, rating thresholds, availability classes), the four sort orders and the price sliders. `Array.prototype.sort` is modelled as a stable insertion sort by an integer key (`Sorting`).
- **The checkout page** (`payment.js`). This is:
  - the insurance total and the amount charged;
  - the ordered checks behind the pay button;
  - the booking id;
  - the card-number and expiry input formatters.
- **The home page** (`main.js`). This is the city autocomplete (matching, capped at eight; the keyboard-driven selection; choosing an item) and the quick-booking form's ordered checks.
- **The landing-page interactions** (`animations.js`). This is the testimonials carousel's index arithmetic, including the `NaN` index of an empty carousel, the single-open FAQ accordion, and the FAQ category filter and text search.

Shared modules:

| module | what it holds |
|---|---|
| `Optional` | the option type |
| `Text` | the ECMAScript string operations used: ASCII `toLowerCase`, `includes`, `trim` and `\s`, `\D`, decimal `toString`, `slice(-k)`, `padStart` |
| `Seqs` | `Array.prototype.filter` and subsequences |
| `Validation` | a chain of checks that reports the first failure |

Inputs the program takes from its environment are parameters:

- the clock (`Date.now()`);
- the random draw (`Math.floor(Math.random() * 1000)`);
- the cache store;
- network outcomes (single, or as a pure oracle from URL or booking to outcome);
- the state of form controls.

## Model

| member | source | states |
|---|---|---|
| ServiceWorker.Classify | service-worker.js:85-114 | A request is bypassed exactly when it is not a GET over http or https. It is served cache-first exactly when intercepted and its URL contains a manifest entry. The image route is taken only for image destinations whose URL contains no API route. |
| ServiceWorker.EveryPatternHasSlash | service-worker.js:12-43 | Every manifest entry and every API route contains a `/`. |
| ServiceWorker.ClassifyBySlash | service-worker.js:95-114 | Because `"/"` is in the manifest and the test is substring containment, every intercepted URL with a slash goes cache-first. Without a slash, the route is images for image destinations and network-first otherwise. The API branch never decides. |
| ServiceWorker.Resolve | service-worker.js:53 | A string the worker hands to the Cache API becomes a request URL. An absolute http(s) URL stays as it is. A string with any other scheme keeps its length and tail, with only the scheme lower-cased. The empty string resolves to the worker script's URL. A fragment-only or query-only string is appended to that URL. A path starting with `/` is appended to the worker's origin. A slash in the string survives. |
| ServiceWorker.SchemeEnd | service-worker.js:53 | Finds the colon that ends a URL scheme: a letter, then letters, digits, `+`, `-` or `.`. It finds it exactly when the string has one, and it is the first such colon. |
| ServiceWorker.NoPathMeansWorkerScript | service-worker.js:295-297 | The empty string, and a fragment-only string, are stored under the worker script's own URL. |
| ServiceWorker.ResolveOnOrigin | service-worker.js:135 | A string without a scheme resolves to a URL that starts with the worker's origin and ends with the string itself. |
| ServiceWorker.Keep | service-worker.js:128-131 | A cacheable fetched response (ok, not 206) is put under the key it is given in the strategy's partition, with nothing else changed. An ok 206 only opens the partition, because `cache.put` rejects it. A non-ok response leaves the store as it was. |
| ServiceWorker.CacheFirst | service-worker.js:120-137 | Lookup and write go by the URL's key. A hit is returned with no network call and no write. On a miss the network is tried and the response is returned. A cacheable response is stored under the key in the static partition, with nothing else changed. An ok response always leaves the static partition open. Any other response changes no entries, and a non-ok one leaves the store untouched. A thrown fetch yields the (possibly absent) cached offline page of the worker's origin. |
| ServiceWorker.CacheFirstImages | service-worker.js:169-189 | Like cache-first, but cacheable responses go to the image partition. A thrown fetch on a miss yields the 404 "Image not found" response, never the offline page. |
| ServiceWorker.NetworkFirst | service-worker.js:140-166 | Every fetched response is returned, whatever its status. Only cacheable ones are stored, in the dynamic partition. On a thrown fetch the store is unchanged. The answer is then the cached entry, else the origin's offline page for navigations, else the 408 text/plain "Network error". |
| ServiceWorker.HandleFetch | service-worker.js:81-115 | No response exactly for non-intercepted requests. Otherwise it is the strategy that the slash test and the destination select. |
| ServiceWorker.InterceptedIsCacheFirst | service-worker.js:83-99 | For a request whose URL starts with its protocol and `//`, as the URL parser guarantees, being intercepted means being classified cache-first and served by `cacheFirst`. |
| ServiceWorker.CacheFirstRevisit | service-worker.js:121-131 | A cacheable response fetched on a cache-first miss is what every later cache-first request for that URL receives, without the network. |
| ServiceWorker.PartialResponseRefetched | service-worker.js:126-131 | A 206 response fetched on a cache-first miss is not kept, so the next request for that URL goes to the network again. |
| ServiceWorker.NetworkFirstOfflineRevisit | service-worker.js:141-154 | A cacheable response fetched network-first is served for that URL once the network fails, if no other partition held the URL. |
| ServiceWorker.FragmentIgnored | service-worker.js:120-189 | A request for a URL with a fragment is served, and stored, exactly as the URL without it, by each of the three strategies. |
| ServiceWorker.OfflineNavigationGetsOfflinePage | service-worker.js:150-159 | Offline and uncached, a navigation served network-first gets the offline page cached under the origin's `/offline.html`. |
| ServiceWorker.AddAll | service-worker.js:53 | `addAll` succeeds exactly when every request URL has an http or https scheme, every fetch gives a cacheable response (ok and not 206), and no two request URLs share a key, fragments being ignored. It then maps each URL's key to the response fetched for it in the named partition and leaves other keys and partitions as they were. |
| ServiceWorker.ManifestKeys | service-worker.js:12-36 | On an origin, which never carries a fragment, every manifest URL is its own cache key. |
| ServiceWorker.ManifestHttp | service-worker.js:12-36 | Every manifest URL on an http(s) origin has an http or https scheme, so `addAll` does not refuse the manifest for its schemes. |
| ServiceWorker.ManifestDistinct | service-worker.js:12-36 | Resolved on any origin, the manifest lists no request URL twice. The site's paths stay distinct on the origin, and none of them lands on the two external URLs. |
| ServiceWorker.Install | service-worker.js:46-58 | The static partition exists afterwards. `skipWaiting` runs exactly when every fetch of the resolved manifest gives a cacheable response. Then every manifest entry's URL on the origin is stored with its response. Otherwise the error is logged, no entries change, and the install completes. |
| ServiceWorker.InstalledAssetsServedOffline | service-worker.js:46-58 | When every manifest fetch succeeded at install, an intercepted request for any manifest entry's URL on the origin, with or without a fragment, goes through the fetch handler to the cache. It gets no network call and the same answer whatever the network does. |
| ServiceWorker.Activate | service-worker.js:61-78 | It deletes exactly the existing names that are stale. It keeps every other partition with its entries and in its order. It preserves distinct names, and it claims the clients. |
| ServiceWorker.ActivatePrunesEarlierRelease | service-worker.js:65-74 | A partition left by an earlier release (`freightflow-v0.9.0-static`) is deleted on activation, and afterwards no partition has that name. |
| ServiceWorker.ActivateIdempotent | service-worker.js:65-74 | A second activation deletes nothing. |
| ServiceWorker.ActivateKeepsCurrentAndForeign | service-worker.js:68-69 | The current partitions and every name outside the `freightflow-` scheme survive activation unchanged. |
| ServiceWorker.HandleMessage | service-worker.js:289-300 | `SKIP_WAITING` (and only it) skips waiting. `CACHE_URLS` opens the dynamic partition and adds the listed URLs (none when absent), resolved on the origin and stored by their keys, all-or-nothing. A URL with a scheme other than http or https refuses the whole batch. Any other message changes no cache. |
| ServiceWorker.OtherSchemeKept | service-worker.js:295-297 | A string with a scheme other than http or https keeps that scheme when resolved, so its key is not an http(s) URL. |
| ServiceWorker.CacheUrlsOtherSchemeRefused | service-worker.js:295-298 | A `CACHE_URLS` list holding one URL with a scheme other than http or https leaves the dynamic partition's entries as they were. |
| ServiceWorker.AckedIds | service-worker.js:217-219 | An id is acknowledged exactly when some posted booking with that id got an ok answer. |
| ServiceWorker.SyncBookings | service-worker.js:200-234 | An empty queue posts nothing and broadcasts nothing. Bookings are posted in queue order. The queue afterwards holds exactly the bookings whose id was never acknowledged. `SYNC_COMPLETE` is broadcast exactly when every POST got an answer. A thrown POST stops the pass at that booking and suppresses the broadcast. |
| ServiceWorker.QueueStep | service-worker.js:210-220 | One more POST removes that booking's id from the queue exactly when its answer was ok. |
| ServiceWorker.Unacked | service-worker.js:242-245 | The queue after removals keeps, in order, exactly the bookings whose id was not removed. |
| ServiceWorker.UnackedTwice | service-worker.js:217-219 | Removing two batches of ids in turn is removing their union. |
| ServiceWorker.HandleSync | service-worker.js:192-198 | Only the `sync-bookings` tag starts a pass. That pass keeps every promise of `SyncBookings`: bookings posted in queue order, the queue left with exactly the unacknowledged bookings, and `SYNC_COMPLETE` broadcast exactly when every POST got an answer. A thrown POST stops the pass there. |
| CacheStore.Key | service-worker.js:121 | A request URL's cache key is the URL up to its first `#`: a prefix of the URL with no `#`, followed in the URL by `#` or nothing. |
| CacheStore.KeyIgnoresFragment | service-worker.js:151 | A URL without a fragment and that URL with any fragment appended have the same key. |
| CacheStore.Match | service-worker.js:121 | `caches.match` finds nothing exactly when no partition holds the key. Otherwise it finds the value of the first partition that does. |
| CacheStore.Open | service-worker.js:129 | `caches.open` leaves the named partition present, adds it empty at the end if missing, and changes no entries. |
| CacheStore.Write | service-worker.js:53 | A batch write changes the entries of the named partition only, by the batch. |
| CacheStore.Put | service-worker.js:130 | `cache.put` maps the key to the value in the named partition and leaves every other partition's entries alone. |
| CacheStore.PutThenMatch | service-worker.js:126-131 | A key no partition held is, after being put, found by `caches.match` with the value put. |
| CacheStore.PutKeepsOtherMatches | service-worker.js:144-147 | A put changes what `caches.match` finds for no other key. |
| CacheStore.Drop | service-worker.js:72 | After `caches.delete` of the selected names, the remaining partitions are exactly those not selected. |
| CacheStore.DropIsSubsequence | service-worker.js:67-74 | Deleting partitions keeps the others in their order. |
| Seqs.Filter | filters.js:197 | `filter` keeps exactly the elements satisfying the predicate. |
| Seqs.FilterIsSubsequence | filters.js:197-216 | A filter's result is an order-preserving subsequence of its input. |
| Seqs.FilterMultiset | filters.js:197-216 | A filter keeps every kept element as often as it occurs, and no other element. |
| Filters.Bound | filters.js:188-189 | A missing slider gives its default bound, 5000 or 25000. |
| Filters.StatusClass | filters.js:211 | Only `Available` is in the class `available`. Every other status is `scheduled`. |
| Filters.ApplyFilters | filters.js:197-216 | The kept trucks are exactly those with a price between the bounds inclusive, a rating at or above some checked threshold when any is checked, and a checked availability class when any is checked. They keep fleet order, with nothing added or repeated. |
| Filters.UncheckedBoxesOnlyPrice | filters.js:203-213 | With no box checked, only the price bounds constrain the listing. |
| Filters.DefaultsKeepAllMockTrucks | filters.js:10-89 | With default bounds and nothing checked, all six mock trucks are kept, in order. |
| Filters.SortMode | filters.js:225-226 | A missing dropdown or an empty value means `recommended`. Any other value is the mode itself, so the mode is never empty. |
| Filters.AvailabilityRank | filters.js:241-244 | Available trucks rank 0, every other truck ranks 1. |
| Filters.OrderOf | filters.js:230-249 | The order is by price for the two price modes and by availability for `availability`. Every other mode, `recommended` included, sorts by rating. |
| Filters.ApplySorting | filters.js:224-250 | The sorted listing is a permutation of the filtered one, ordered by the selected key. |
| Filters.SortingOrders | filters.js:230-249 | `price-low` gives non-decreasing prices and `price-high` non-increasing ones. `availability` puts every available truck before every other truck. Every other mode gives non-increasing ratings. |
| Filters.AvailabilitySortIsStable | filters.js:240-244 | Among available trucks, and among all others, the availability sort keeps the original order. |
| Filters.Listing | filters.js:197-219 | The listing holds exactly the kept trucks and is no longer than the fleet. |
| Filters.MockFleetByPriceHigh | filters.js:234-235 | The mock fleet sorted `price-high` lists the prices 22000, 18000, 16000, 15000, 14000, 12500. |
| Filters.PriceHighMode | filters.js:234-235 | `price-high` is the sort by descending price. |
| Filters.OnMinInput | filters.js:114-120 | The lower slider is clamped to the upper one: afterwards min ≤ max. The value is taken unless it exceeds max. |
| Filters.OnMaxInput | filters.js:122-128 | The upper slider is clamped to the lower one: afterwards min ≤ max. The value is taken unless it is below min. |
| Filters.OnReset | filters.js:147-160 | Reset restores the default bounds 5000 and 25000. |
| Sorting.SortPermutes | filters.js:232 | The sort is a permutation. |
| Sorting.SortSorted | filters.js:232 | The sort orders by key. |
| Sorting.SortIsStable | filters.js:241-244 | The elements sharing a key keep their relative order. |
| Sorting.SortOfSorted | filters.js:232 | A sequence already in key order is left as it is. |
| Sorting.SortSix | filters.js:234-235 | Six elements whose keys strictly increase when read in the positions 3, 2, 5, 1, 4, 0 (the mock fleet's arrangement under the price-descending key) sort to exactly that order. |
| Payment.OnInsuranceChange | payment.js:67-92 | The shown total is the base plus 500 exactly when the box is checked. The insurance line is hidden exactly when it is not. |
| Payment.ChargedAmount | payment.js:183 | The logged amount is base plus insurance exactly when the box exists and is checked. Otherwise it is the base. |
| Payment.ShownIsCharged | payment.js:64-91 | The shown total equals the charged amount. Checked it is 13000. Unchecking restores the base total. |
| Payment.Message | payment.js:118-148 | Every refusal but an invalid form shows a notification. |
| Payment.PaymentMethod | payment.js:127-128 | The method is the active tab's, or UPI when no tab is active. |
| Payment.PaymentChecks | payment.js:111-148 | The four checks in order: the form is valid, the terms are accepted, the UPI id is not blank when paying by UPI id, and the card number is not blank when paying by card. |
| Payment.HandlePayment | payment.js:111-160 | Processing starts, with the chosen method, exactly when all four checks pass. Otherwise the first failing check is reported. |
| Payment.PaymentCheckOrder | payment.js:111-148 | Each refusal is reported exactly when every earlier check passes. |
| Payment.NoActiveTabMeansUpi | payment.js:126-141 | With no active tab the payment proceeds as UPI and never asks for a card number. |
| Payment.BookingId | payment.js:188-193 | The id starts with `FF`, followed by up to eight stamp digits and three draw digits. |
| Payment.BookingIdFields | payment.js:188-193 | The stamp field reads back as the clock modulo 10^8 and the draw field as the draw. The id has 13 characters once the clock has eight digits. |
| Payment.BookingIdParts | payment.js:190-192 | The id is the prefix, the last eight clock digits and the padded draw, side by side. |
| Payment.PaddedDraw | payment.js:191 | A draw below 1000, padded to three digits, is three digits that read back as the draw. |
| Payment.FormatCardNumber | payment.js:268-272 | Empty input gives empty output. |
| Payment.GroupsOfFourShape | payment.js:270 | Grouped text has a space exactly at every fifth position and never at the end. Removing the spaces gives the input back. |
| Payment.GroupsSpacing | payment.js:270 | Spaces fall exactly at positions 4, 9, 14, … . |
| Payment.CardNumberRoundTrip | payment.js:269-271 | Stripping spaces from the formatted number gives the input without its white space. The output is groups of four separated by single spaces. |
| Payment.CardNumberIdempotent | payment.js:268-272 | Formatting formatted output changes nothing. |
| Payment.FormatExpiry | payment.js:279-285 | The output is at most five characters. Fewer than two digits are shown as typed. Otherwise the third character is the slash. |
| Payment.ExpiryKeepsDigits | payment.js:280-283 | The output's digits are the first four digits typed, in order. |
| Payment.KeepAroundSlash | payment.js:282 | Digits on both sides of the slash are kept, and the slash is dropped. |
| Payment.ExpiryIdempotent | payment.js:279-285 | Formatting a formatted expiry changes nothing. |
| Homepage.FirstMatches | main.js:91-96 | At most `cap` matching cities, a subsequence of the data. When fewer than `cap` are returned, they include every matching city. |
| Homepage.FilterCities | main.js:89-97 | At most eight cities whose lower-cased name or state contains the lower-cased query, in data order. Below the cap, every matching city is listed. |
| Homepage.FilterCitiesIgnoresCase | main.js:90-94 | Queries equal up to case give the same suggestions. |
| Homepage.AllMatches | main.js:91-95 | The uncapped filter is a subsequence of the data and holds exactly the cities whose lower-cased name or state contains the query. |
| Homepage.FirstMatchesArePrefix | main.js:91-96 | The capped search is exactly the first `cap` of all matches, as `filter` then `slice`. |
| Homepage.FilterCitiesUncapped | main.js:96 | With at most eight matches, all of them are suggested. |
| Homepage.Hide | main.js:173-176 | Hiding closes the list and resets the selection to -1, keeping the input and items. |
| Homepage.OnInput | main.js:77-87 | A blank trimmed query hides the list. The list is open exactly when the trimmed query has matches, and then shows them with the selection kept. |
| Homepage.SelectItem | main.js:160-171 | Choosing puts the value in the field, and in the hidden `<id>-selected` field exactly when the page has one, closes the list and resets the selection. |
| Homepage.OnKeydown | main.js:132-152 | ArrowDown gives `min(i+1, n-1)` and ArrowUp `max(i-1, 0)`. Enter chooses only an existing selected item. Escape hides. Other keys change nothing. |
| Homepage.ArrowsStayOnList | main.js:135-142 | The arrows keep the selection on the list. |
| Homepage.ArrowsAreInverse | main.js:135-142 | Up undoes down and down undoes up, away from the ends of the list. |
| Homepage.ArrowDownRepeated | main.js:137 | k presses of ArrowDown from no selection select item `min(k-1, n-1)`. |
| Homepage.EnterChoosesOnlyASelectedItem | main.js:143-148 | Enter changes nothing unless the selection is on the list. Then it puts that item's city in the field, and in the hidden field when there is one, and resets the selection. |
| Homepage.StaleSelectionIsIgnored | main.js:99-148 | Rendering keeps `selectedIndex`, so a selection can be left past the end of a newly rendered, shorter list. Enter then does nothing. |
| Homepage.Alert | main.js:206-227 | Every refusal has a non-empty alert. |
| Homepage.BookingChecks | main.js:206-227 | The checks in order: pickup present, delivery present, truck type present, and locations different ignoring case. |
| Homepage.Submit | main.js:201-235 | The search is stored exactly when all four checks pass, with the values checked. Otherwise the first failing check is alerted. |
| Homepage.SubmitQuickBooking | main.js:198-235 | What is stored is the trimmed, non-empty pickup and delivery and a non-empty truck type. |
| Homepage.BookingCheckOrder | main.js:206-227 | Each refusal is reported exactly when every earlier check passes. |
| Homepage.SameCityInOtherCase | main.js:224-227 | Locations that differ only in case or surrounding white space are refused as the same. |
| Animations.NewCarousel | animations.js:37-40 | The carousel starts on slide 0, which is a slide whenever there is one. |
| Animations.GoToSlide | animations.js:54-63 | `goToSlide(k)` makes k current. |
| Animations.Indicators | animations.js:59-62 | The dot at position i is active exactly when i is the current index. |
| Animations.GoToSlideActivatesOneDot | animations.js:54-63 | After `goToSlide(k)`, exactly dot k is active. |
| Animations.JsRem | animations.js:66 | JavaScript's `%`: `NaN` for a zero divisor or `NaN` dividend, and the ordinary remainder for non-negative dividends. |
| Animations.NextSlide | animations.js:65-68 | A valid index stays valid. An empty carousel's index becomes `NaN`. |
| Animations.PrevSlide | animations.js:70-73 | A valid index stays valid. An empty carousel's index becomes `NaN`. |
| Animations.StepsAreModular | animations.js:65-73 | The steps are `(i+1) mod n` and `(i-1+n) mod n`. |
| Animations.PrevUndoesNext | animations.js:65-73 | Previous undoes next, and next undoes previous. |
| Animations.ForwardIsModular | animations.js:65-68 | k steps forward land on `(i+k) mod n`. |
| Animations.FullCircle | animations.js:65-68 | n steps forward return to the starting slide. |
| Animations.EmptyCarousel | animations.js:39-73 | With no slides, either step makes the index `NaN` and no dot is ever active. |
| Animations.OnCarouselKey | animations.js:91-94 | The left arrow goes back, the right arrow forward, and other keys do nothing. |
| Animations.ClickQuestion | animations.js:100-121 | A click collapses every other question and toggles the clicked one. Present answers stay present. |
| Animations.ClickLeavesOneOpen | animations.js:100-121 | After any click at most one question is expanded, and every present answer is hidden exactly when its question is collapsed. |
| Animations.ClickTwiceClosesAll | animations.js:116-120 | Clicking a closed question opens it, and clicking it again leaves every question closed. |
| Animations.ClickTouchesOnlyOpenOnes | animations.js:106-114 | From a consistent state, a click changes no collapsed question other than the clicked one. |
| Animations.ChooseCategory | animations.js:128-145 | Only the clicked button is active. A group is shown exactly when the category is `all` or the group's own. |
| Animations.CategoryShowsItsGroups | animations.js:137-143 | `all` shows every group, and any other category shows exactly its groups. |
| Animations.SearchFaq | animations.js:150-165 | An item is shown exactly when its lower-cased question contains the lower-cased query. |
| Animations.EmptySearchShowsAll | animations.js:158 | An empty query shows every item. |
| Animations.LongerQueryShowsFewer | animations.js:151-163 | An item shown for a query is shown for every prefix of it. |
| Animations.SearchIgnoresCase | animations.js:152-155 | Queries equal up to case show the same items. |
| Text.Lower | main.js:90 | Lower-casing keeps the length and maps each character to its ASCII lower case. |
| Text.LowerIdempotent | main.js:90 | Lower-casing an already lower-cased query changes nothing. |
| Text.Trim | main.js:78 | `trim` removes exactly the leading and trailing white space. What remains neither starts nor ends with it. |
| Text.TrimEmptyIffAllSpace | main.js:78-80 | A value trims to empty exactly when it is all white space. |
| Text.StripSpaces | payment.js:269 | `replace(/\s/g, '')` leaves no white space. |
| Text.StripSpacesOfNoSpace | payment.js:269 | Text without white space is left as it is. |
| Text.KeepDigits | payment.js:280 | `replace(/\D/g, '')` leaves only digits. |
| Text.KeepDigitsOfDigits | payment.js:280 | Digits only are left as they are. |
| Text.Decimal | payment.js:190 | The decimal rendering is a non-empty digit string. |
| Text.DecimalRoundTrip | payment.js:190 | The rendering reads back as the number. |
| Text.DecimalLength | payment.js:190 | A number has more than k digits exactly when it is at least 10^k. |
| Text.LastChars | payment.js:190 | `slice(-k)` is the last k characters, or all of them if there are fewer. |
| Text.LastDigitsAreRemainder | payment.js:190 | The last k digits read back as the number modulo 10^k. |
| Text.PadZeros | payment.js:191 | `padStart(w, '0')` is the text behind enough zeros to reach width w. |
| Text.ContainsIffOccurs | animations.js:158 | `includes` holds exactly when the needle occurs at some position. |
| Validation.FirstFailure | payment.js:111-148 | The chain passes exactly when every check passes. Otherwise it reports the error of the first failing check. |
| Validation.FirstFailureOfFour | main.js:206-227 | In a chain of four, each check's failure is what is reported when every earlier check passes. |

## Left out

- DOM, presentation and platform work is not modelled. This covers rendering of cards and suggestion markup, `toLocaleString('en-IN')` currency text, icons, notifications, focus, the payment tab and UPI radio toggles, the success modal, the mobile menu, scroll animations, the chatbot, the video placeholder and smooth scrolling.
- Timers are not modelled. This covers the carousel's autoplay and hover pause, the 2-second payment delay, the redirect delay and the reset handler's `setTimeout`. Autoplay is the same `NextSlide` step, so `Forward` covers repeated autoplay ticks.
- Storage is not modelled: `sessionStorage` and the pending-bookings store. The pending queue is an input of `SyncBookings`. In the source, `getPendingBookings` always returns an empty list and `removePendingBooking` only logs. The model instead gives the queue the removals these helpers stand for.
- The push and notification-click handlers of the service worker are platform wrappers with no logic to state.
- `tracking.js`, `search.js`, `api.js` and `map-integration.js` are not part of this model. They hold mock rendering, navigation, an HTTP client and map wrapping.
- `highlightMatch` builds a regular expression from raw input; regular-expression semantics are not modelled.
- Text.Lower: lower-cases ASCII letters only. `toLowerCase` also folds non-ASCII letters.
- The model has no surrogate pairs: strings are sequences of Unicode scalar values, so a JavaScript string holding lone surrogates cannot be expressed.
- Payment.FormatCardNumber: a character outside the Basic Multilingual Plane is one element of a Dafny string but two UTF-16 code units in JavaScript. The source's `/.{1,4}/g` has no `u` flag, so it groups code units, and a group can split such a character's pair. The model groups characters. The expiry formatter keeps digits only, so it has no such gap.
- Filters.Truck: ratings are held in integer tenths (4.7 is 47), and a checked threshold t is compared as `rating ≥ 10·t`. This is exact for the fleet's one-decimal ratings. Ratings with more decimals, or floating-point rounding, are not modelled. Truck fields that only the card display reads (type, capacity, location, transporter, trips, experience) are dropped.
- Filters.ApplySorting: the availability comparator is modelled as a sort by rank, available first. When two different statuses that are both not `Available` meet, the source's comparator answers 1 both ways, which is inconsistent, and the engine's order is then implementation-defined. The model keeps such trucks in input order. All six mock trucks are `Available`.
- Filters.Bound: a slider present but with an empty value falls back to the default (`value || 5000`). The model treats a present slider as always holding a number.
- ServiceWorker.Install: an `addAll` failure is logged and swallowed, as the code does, so the install event still completes; only `skipWaiting` is not called. Whether the browser then activates the new worker is outside the model.
- ServiceWorker.AddAll: is all-or-nothing, the Cache API's batch semantics. Its refusal of a batch in which two URLs share a key, or that holds a 206 response, follows that API. An ok response is taken as a 2xx status; opaque and redirected responses are not distinguished.
- ServiceWorker.Resolve: handles the empty string, fragment-only and query-only references, paths, plain relative names and URLs with a scheme. It does not model scheme-relative references (`//host/x`), backslashes, dot segments, percent-encoding, host case or default ports, stripping of whitespace, tabs and newlines, or an http(s) URL written without `//` (`http:host`), which is kept as written rather than normalised. Strings sent with `CACHE_URLS` are assumed to need none of these. That holds for paths, page names and plain http(s) URLs.
- ServiceWorker.CacheFirst: the `cache.put` after a miss is not awaited. The model's store is the one after the write has landed, so a request that races the write and still misses is not modelled. A rejected put (a 206, or a quota failure, which is not modelled at all) goes unhandled and the response is still returned.
- ServiceWorker.CacheFirstImages: the same un-awaited `cache.put` as `cacheFirst`. The store is the one after the write has landed.
- ServiceWorker.NetworkFirst: the same un-awaited `cache.put` as `cacheFirst`. The store is the one after the write has landed.
- CacheStore.Match: requests are identified by their cache key, the URL without its fragment. Request methods, `Vary` headers and the search options of `caches.match` are not modelled, and a response is a snapshot of status, status text, body and content type.
- Payment.BookingId: the clock is a natural number, rendered in plain decimal. `Date.now()` never reaches the exponent notation of `toString` (it would need 10^21 milliseconds).
- Homepage.SubmitQuickBooking: the stored search leaves out its `timestamp` (a clock reading), and the redirect to the booking page is not modelled.
- Animations.ClickQuestion: each question's answer is its own element. Two buttons naming the same answer through `aria-controls` are not modelled.
- Animations.SearchFaq: `textContent` is taken to be the question's text, and an item missing its `.faq-item` container is not modelled.

=== FILE: animations.dfy ===
/** The landing page's interactions: the testimonials carousel, the FAQ
    accordion, and the FAQ's category filter and text search. */
module Animations {
  import opened Optional
  import opened Text

  /** `n` flags of which only the one at position `k` is set: the
      carousel's indicator dots, and the category buttons' `active` class. */
  function OnlyActive(n: nat, k: int): (r: seq<bool>)
    ensures |r| == n
    ensures forall i :: 0 <= i < n ==> (r[i] <==> i == k)
  {
    seq(n, i => i == k)
  }

  // -----------------------------------------------------------------------
  // The carousel

  /** The carousel's `currentIndex`, a JavaScript number: with no slides
      the remainder by zero makes it `NaN`, which stays `NaN`. */
  datatype SlideIndex = At(i: int) | NotANumber

  /** The slide count, fixed when the page loads, and the current index. */
  datatype Carousel = Carousel(count: nat, current: SlideIndex)

  /** The carousel as the page creates it. */
  function NewCarousel(count: nat): (r: Carousel)
    ensures r.count == count && r.current == At(0)
    ensures count > 0 ==> Valid(r)
  {
    Carousel(count, At(0))
  }

  /** The index names a slide. */
  predicate Valid(c: Carousel) {
    c.current.At? && 0 <= c.current.i < c.count
  }

  /** JavaScript's `%` on numbers: the sign of the result is the sign of the
      dividend, and a zero divisor gives `NaN`. */
  function JsRem(a: SlideIndex, n: nat): (r: SlideIndex)
    ensures n == 0 || a.NotANumber? ==> r.NotANumber?
    ensures n > 0 && a.At? && a.i >= 0 ==> r == At(a.i % n)
    ensures r.At? ==> -(n as int) < r.i < n
  {
    if n == 0 || a.NotANumber? then NotANumber
    else if a.i >= 0 then At(a.i % n)
    else At(-((-a.i) % n))
  }

  function Plus(a: SlideIndex, d: int): SlideIndex {
    if a.NotANumber? then NotANumber else At(a.i + d)
  }

  /** `goToSlide`: the index is set, and the indicator dots follow it. */
  function GoToSlide(c: Carousel, k: int): (r: Carousel)
    ensures r.count == c.count && r.current == At(k)
    ensures 0 <= k < c.count ==> Valid(r)
  {
    c.(current := At(k))
  }

  /** The indicator dots: the one for the current slide is active. */
  function Indicators(c: Carousel): (r: seq<bool>)
    ensures |r| == c.count
    ensures forall i :: 0 <= i < c.count ==> (r[i] <==> c.current == At(i))
  {
    if c.current.At? then OnlyActive(c.count, c.current.i) else OnlyActive(c.count, -1)
  }

  /** After `goToSlide(k)` for a slide `k`, exactly its dot is active. */
  lemma GoToSlideActivatesOneDot(c: Carousel, k: int)
    requires 0 <= k < c.count
    ensures Indicators(GoToSlide(c, k))[k]
    ensures forall i :: 0 <= i < c.count && i != k ==> !Indicators(GoToSlide(c, k))[i]
  {
  }

  /** `nextSlide`, by the button, the right arrow key or the autoplay
      timer. */
  function NextSlide(c: Carousel): (r: Carousel)
    ensures r.count == c.count
    ensures Valid(c) ==> Valid(r)
    ensures c.count == 0 ==> r.current.NotANumber?
  {
    GoToSlide0(c, JsRem(Plus(c.current, 1), c.count))
  }

  /** `prevSlide`, by the button or the left arrow key. */
  function PrevSlide(c: Carousel): (r: Carousel)
    ensures r.count == c.count
    ensures Valid(c) ==> Valid(r)
    ensures c.count == 0 ==> r.current.NotANumber?
  {
    GoToSlide0(c, JsRem(Plus(Plus(c.current, -1), c.count), c.count))
  }

  /** `goToSlide` with a number that may be `NaN`. */
  function GoToSlide0(c: Carousel, k: SlideIndex): (r: Carousel)
    ensures r.count == c.count && r.current == k
  {
    c.(current := k)
  }

  /** The steps are `(i + 1) mod n` and `(i - 1 + n) mod n`. */
  lemma StepsAreModular(c: Carousel)
    requires Valid(c)
    ensures NextSlide(c).current == At((c.current.i + 1) % c.count)
    ensures PrevSlide(c).current == At((c.current.i - 1 + c.count) % c.count)
  {
  }

  /** The previous slide undoes the next one, and the other way round. */
  lemma PrevUndoesNext(c: Carousel)
    requires Valid(c)
    ensures PrevSlide(NextSlide(c)) == c
    ensures NextSlide(PrevSlide(c)) == c
  {
    var n, i := c.count, c.current.i;
    NextIndex(i, n);
    PrevIndex(i, n);
    var next, prev := NextSlide(c), PrevSlide(c);
    StepsAreModular(c);
    assert Valid(next) && Valid(prev);
    StepsAreModular(next);
    StepsAreModular(prev);
    PrevIndex(next.current.i, n);
    NextIndex(prev.current.i, n);
  }

  lemma NextIndex(i: int, n: nat)
    requires 0 <= i < n
    ensures (i + 1) % n == if i == n - 1 then 0 else i + 1
  {
    if i == n - 1 {
      ModUnique(i + 1, n, 1, 0);
    } else {
      ModUnique(i + 1, n, 0, i + 1);
    }
  }

  lemma PrevIndex(i: int, n: nat)
    requires 0 <= i < n
    ensures (i - 1 + n) % n == if i == 0 then n - 1 else i - 1
  {
    if i == 0 {
      ModUnique(n - 1, n, 0, n - 1);
    } else {
      ModUnique(i - 1 + n, n, 1, i - 1);
    }
  }

  /** The carousel after `k` steps forward. */
  function Forward(c: Carousel, k: nat): (r: Carousel)
    ensures r.count == c.count
  {
    if k == 0 then c else NextSlide(Forward(c, k - 1))
  }

  /** `k` steps forward land on `(i + k) mod n`. */
  lemma {:induction false} ForwardIsModular(c: Carousel, k: nat)
    requires Valid(c)
    ensures Forward(c, k) == c.(current := At((c.current.i + k) % c.count))
  {
    if k > 0 {
      ForwardIsModular(c, k - 1);
      var n, i := c.count, c.current.i;
      var j := (i + k - 1) % n;
      assert NextSlide(Forward(c, k - 1)).current == At((j + 1) % n);
      ModStep(i + k - 1, n);
    }
  }

  lemma ModStep(a: nat, n: nat)
    requires n > 0
    ensures (a % n + 1) % n == (a + 1) % n
  {
    var q, b := a / n, a % n;
    assert a == n * q + b;
    if b == n - 1 {
      ModUnique(a + 1, n, q + 1, 0);
      ModUnique(b + 1, n, 1, 0);
    } else {
      ModUnique(a + 1, n, q, b + 1);
      ModUnique(b + 1, n, 0, b + 1);
    }
  }

  /** As many steps forward as there are slides come back to the start. */
  lemma FullCircle(c: Carousel)
    requires Valid(c)
    ensures Forward(c, c.count) == c
  {
    ForwardIsModular(c, c.count);
    var n, i := c.count, c.current.i;
    ModUnique(i + n, n, 1, i);
  }

  /** An empty carousel's index becomes `NaN` on the first step and no dot
      is ever active. */
  lemma EmptyCarousel(c: Carousel)
    requires c.count == 0
    ensures NextSlide(c).current.NotANumber? && PrevSlide(c).current.NotANumber?
    ensures Indicators(NextSlide(c)) == []
  {
  }

  datatype CarouselKey = ArrowLeft | ArrowRight | OtherCarouselKey

  /** The carousel's key handler. */
  function OnCarouselKey(c: Carousel, key: CarouselKey): (r: Carousel)
    ensures key == ArrowLeft ==> r == PrevSlide(c)
    ensures key == ArrowRight ==> r == NextSlide(c)
    ensures key == OtherCarouselKey ==> r == c
  {
    match key
    case ArrowLeft => PrevSlide(c)
    case ArrowRight => NextSlide(c)
    case OtherCarouselKey => c
  }

  // -----------------------------------------------------------------------
  // The FAQ accordion

  /** One question: whether its button is expanded (`aria-expanded` is
      `"true"`), and its answer's `aria-hidden` state, `None` when the
      answer is missing from the page. */
  datatype Question = Question(expanded: bool, answerHidden: Option<bool>)

  /** A click on question `b`: every other question collapses and hides
      its answer; `b` flips, and its answer is hidden exactly when `b` was
      expanded. */
  function ClickQuestion(qs: seq<Question>, b: nat): (r: seq<Question>)
    requires b < |qs|
    ensures |r| == |qs|
    ensures forall i :: 0 <= i < |qs| ==> r[i].answerHidden.Some? == qs[i].answerHidden.Some?
    ensures r[b].expanded == !qs[b].expanded
    ensures forall i :: 0 <= i < |qs| && i != b ==> !r[i].expanded
  {
    seq(|qs|, i requires 0 <= i < |qs| =>
      if i == b then
        Question(!qs[b].expanded, if qs[b].answerHidden.Some? then Some(qs[b].expanded) else None)
      else
        Question(false, if qs[i].answerHidden.Some? then Some(true) else None))
  }

  predicate AtMostOneExpanded(qs: seq<Question>) {
    forall i, j :: 0 <= i < |qs| && 0 <= j < |qs| && qs[i].expanded && qs[j].expanded ==> i == j
  }

  /** Each present answer is hidden exactly when its question is
      collapsed. */
  predicate AnswersFollow(qs: seq<Question>) {
    forall i :: 0 <= i < |qs| && qs[i].answerHidden.Some? ==> (qs[i].answerHidden.value <==> !qs[i].expanded)
  }

  /** Whatever the state before, after a click at most one question is
      open and every answer agrees with its question. */
  lemma ClickLeavesOneOpen(qs: seq<Question>, b: nat)
    requires b < |qs|
    ensures AtMostOneExpanded(ClickQuestion(qs, b))
    ensures AnswersFollow(ClickQuestion(qs, b))
  {
  }

  /** A click opens a closed question and closes an open one; clicking the
      same question twice closes everything. */
  lemma ClickTwiceClosesAll(qs: seq<Question>, b: nat)
    requires b < |qs| && !qs[b].expanded
    ensures ClickQuestion(qs, b)[b].expanded
    ensures forall i :: 0 <= i < |qs| ==> !ClickQuestion(ClickQuestion(qs, b), b)[i].expanded
  {
  }

  /** Opening question `b` from a consistent state changes nothing but
      the question that was open, if any, and `b`. */
  lemma ClickTouchesOnlyOpenOnes(qs: seq<Question>, b: nat, i: nat)
    requires b < |qs| && i < |qs| && i != b
    requires AnswersFollow(qs) && !qs[i].expanded
    ensures ClickQuestion(qs, b)[i] == qs[i]
  {
  }

  // -----------------------------------------------------------------------
  // The FAQ category filter and search

  /** A group is shown when the chosen category is `"all"` or is the
      group's own. A button or group without a category has `None`. */
  predicate GroupShown(chosen: Option<string>, group: Option<string>) {
    chosen == Some("all") || group == chosen
  }

  /** The effect of a click on category button `b`: the buttons' active
      flags and the groups' visibility. */
  function ChooseCategory(buttons: seq<Option<string>>, b: nat, groups: seq<Option<string>>): (r: (seq<bool>, seq<bool>))
    requires b < |buttons|
    ensures |r.0| == |buttons| && |r.1| == |groups|
    ensures forall i :: 0 <= i < |buttons| ==> (r.0[i] <==> i == b)
    ensures forall g :: 0 <= g < |groups| ==> (r.1[g] <==> buttons[b] == Some("all") || groups[g] == buttons[b])
  {
    (OnlyActive(|buttons|, b), seq(|groups|, g requires 0 <= g < |groups| => GroupShown(buttons[b], groups[g])))
  }

  /** "all" shows every group; any other category shows exactly the groups
      of that category. */
  lemma CategoryShowsItsGroups(buttons: seq<Option<string>>, b: nat, groups: seq<Option<string>>)
    requires b < |buttons|
    ensures buttons[b] == Some("all") ==> forall g :: 0 <= g < |groups| ==> ChooseCategory(buttons, b, groups).1[g]
    ensures buttons[b] != Some("all") ==>
              forall g :: 0 <= g < |groups| ==> (ChooseCategory(buttons, b, groups).1[g] <==> groups[g] == buttons[b])
  {
  }

  /** The search's predicate: the question text contains the query,
      ignoring case. */
  predicate ItemShown(query: string, question: string) {
    Contains(Lower(question), Lower(query))
  }

  /** The search input handler: the visibility of each FAQ item. */
  function SearchFaq(query: string, questions: seq<string>): (r: seq<bool>)
    ensures |r| == |questions|
    ensures forall i :: 0 <= i < |questions| ==> (r[i] <==> ItemShown(query, questions[i]))
  {
    seq(|questions|, i requires 0 <= i < |questions| => ItemShown(query, questions[i]))
  }

  /** An empty query shows every item. */
  lemma EmptySearchShowsAll(questions: seq<string>)
    ensures forall i :: 0 <= i < |questions| ==> SearchFaq([], questions)[i]
  {
    forall i | 0 <= i < |questions|
      ensures ItemShown([], questions[i])
    {
      ContainsEmpty(Lower(questions[i]));
    }
  }

  /** Typing more only hides items: an item shown for a query is shown for
      every prefix of it. */
  lemma LongerQueryShowsFewer(query: string, k: nat, questions: seq<string>)
    requires k <= |query|
    ensures forall i :: 0 <= i < |questions| && SearchFaq(query, questions)[i] ==> SearchFaq(query[..k], questions)[i]
  {
    forall i | 0 <= i < |questions| && ItemShown(query, questions[i])
      ensures ItemShown(query[..k], questions[i])
    {
      ContainsPrefix(Lower(questions[i]), Lower(query), k);
      assert Lower(query)[..k] == Lower(query[..k]);
    }
  }

  /** The search ignores the case of the query. */
  lemma SearchIgnoresCase(q1: string, q2: string, questions: seq<string>)
    requires Lower(q1) == Lower(q2)
    ensures SearchFaq(q1, questions) == SearchFaq(q2, questions)
  {
  }
}

=== FILE: cache_store.dfy ===
/** The browser's CacheStorage as the service worker uses it: named
    partitions, each a map from request URL to a stored response, kept in
    creation order. `caches.match` searches every partition in that order;
    `caches.open`, `cache.put`, `cache.addAll` and `caches.delete` touch
    one named partition. */
module CacheStore {
  import opened Optional
  import opened Seqs

  /** A response snapshot: status, status text, body and content type. */
  datatype Response = Response(status: int, statusText: string, body: string, contentType: string) {
    /** `Response.ok`: a status in the 2xx range. */
    predicate Ok() {
      200 <= status <= 299
    }

    /** What `cache.put` and `cache.addAll` store: an ok response other
        than 206 (partial content), which both of them reject. */
    predicate Cacheable() {
      Ok() && status != 206
    }
  }

  datatype Partition = Partition(name: string, entries: map<string, Response>)

  type Store = seq<Partition>

  function Names(s: Store): (r: seq<string>)
    ensures |r| == |s|
    ensures forall i :: 0 <= i < |s| ==> r[i] == s[i].name
  {
    seq(|s|, i requires 0 <= i < |s| => s[i].name)
  }

  /** No two partitions share a name. */
  predicate Valid(s: Store) {
    forall i, j :: 0 <= i < j < |s| ==> s[i].name != s[j].name
  }

  /** The entries of partition `name`, empty when there is none. */
  function Entries(s: Store, name: string): map<string, Response>
  {
    if |s| == 0 then map[]
    else if s[0].name == name then s[0].entries
    else Entries(s[1..], name)
  }

  lemma {:induction false} EntriesAt(s: Store, i: int)
    requires Valid(s) && 0 <= i < |s|
    ensures Entries(s, s[i].name) == s[i].entries
  {
    if i > 0 {
      EntriesAt(s[1..], i - 1);
    }
  }

  lemma {:induction false} EntriesAbsent(s: Store, name: string)
    requires name !in Names(s)
    ensures Entries(s, name) == map[]
  {
    if |s| > 0 {
      assert s[0].name == Names(s)[0];
      assert Names(s[1..]) == Names(s)[1..];
      EntriesAbsent(s[1..], name);
    }
  }

  /** The key a request URL is stored and looked up under: the URL with
      its fragment (from the first `#` on) cut off, since the Cache API
      compares request URLs with their fragments excluded. */
  function Key(url: string): (r: string)
    ensures '#' !in r
    ensures |r| <= |url| && url[..|r|] == r
    ensures |r| < |url| ==> url[|r|] == '#'
  {
    if |url| == 0 || url[0] == '#' then []
    else
      var rest := Key(url[1..]);
      assert url[1..][..|rest|] == rest;
      assert url[..|rest| + 1] == [url[0]] + url[1..][..|rest|];
      [url[0]] + rest
  }

  /** A URL without a fragment is its own key. */
  lemma KeyOfPlain(url: string)
    requires '#' !in url
    ensures Key(url) == url
  {
  }

  /** Any fragment appended to a URL without one leaves its key alone. */
  lemma KeyIgnoresFragment(url: string, fragment: string)
    requires '#' !in url
    ensures Key(url + "#" + fragment) == url
  {
    var u := url + "#" + fragment;
    var r := Key(u);
    assert u[|url|] == '#';
    assert u[..|url|] == url;
  }

  function KeyAll(urls: seq<string>): (r: seq<string>)
    ensures |r| == |urls|
    ensures forall i :: 0 <= i < |urls| ==> r[i] == Key(urls[i])
  {
    seq(|urls|, i requires 0 <= i < |urls| => Key(urls[i]))
  }

  /** `caches.match(key)`: the response stored under `key` in the first
      partition that holds one. */
  function Match(s: Store, key: string): (r: Option<Response>)
    ensures r.None? <==> forall i :: 0 <= i < |s| ==> key !in s[i].entries
    ensures r.Some? ==> exists i :: FirstHolder(s, key, i) && s[i].entries[key] == r.value
  {
    if |s| == 0 then None
    else if key in s[0].entries then
      assert FirstHolder(s, key, 0);
      Some(s[0].entries[key])
    else
      var r := Match(s[1..], key);
      if r.Some? then
        var i :| FirstHolder(s[1..], key, i) && s[1..][i].entries[key] == r.value;
        assert FirstHolder(s, key, i + 1);
        r
      else
        r
  }

  /** Partition `i` is the first one that holds `key`. */
  predicate FirstHolder(s: Store, key: string, i: int) {
    && 0 <= i < |s|
    && key in s[i].entries
    && forall j :: 0 <= j < i ==> key !in s[j].entries
  }

  /** `caches.open(name)`: the store with partition `name` present, created
      empty at the end when it did not exist. */
  function Open(s: Store, name: string): (r: Store)
    ensures name in Names(r)
    ensures Valid(s) ==> Valid(r)
    ensures |r| == if name in Names(s) then |s| else |s| + 1
    ensures forall i :: 0 <= i < |s| ==> r[i] == s[i]
    ensures name !in Names(s) ==> r[|s|] == Partition(name, map[])
    ensures forall n :: Entries(r, n) == Entries(s, n)
  {
    if name in Names(s) then s
    else
      var r := s + [Partition(name, map[])];
      assert Names(r) == Names(s) + [name];
      forall n
        ensures Entries(r, n) == Entries(s, n)
      {
        EntriesSnoc(s, Partition(name, map[]), n);
        if n == name {
          EntriesAbsent(s, name);
        }
      }
      r
  }

  lemma {:induction false} EntriesSnoc(s: Store, p: Partition, n: string)
    requires p.entries == map[] || n !in Names(s)
    ensures Entries(s + [p], n) == if n in Names(s) || n != p.name then Entries(s, n) else p.entries
  {
    if |s| == 0 {
    } else {
      assert (s + [p])[1..] == s[1..] + [p];
      assert Names(s[1..]) == Names(s)[1..];
      assert Names(s)[0] == s[0].name;
      EntriesSnoc(s[1..], p, n);
    }
  }

  /** Partition `name` (opened if need be) with the pairs of `m` written
      into it, later writes replacing earlier ones; every other partition
      unchanged. `cache.put` writes one pair, `cache.addAll` a batch. */
  function Write(s: Store, name: string, m: map<string, Response>): (r: Store)
    ensures Names(r) == Names(Open(s, name))
    ensures Valid(s) ==> Valid(r)
    ensures Entries(r, name) == Entries(s, name) + m
    ensures forall n :: n != name ==> Entries(r, n) == Entries(s, n)
    ensures forall i :: 0 <= i < |r| ==> r[i].entries == Written(Open(s, name)[i], name, m)
  {
    var o := Open(s, name);
    var r := Update(o, name, m);
    assert Names(r) == Names(o);
    assert Entries(o, name) == Entries(s, name);
    assert Entries(r, name) == Entries(o, name) + m;
    r
  }

  /** The entries of partition `p` once the pairs of `m` are written into
      partition `name`. */
  function Written(p: Partition, name: string, m: map<string, Response>): map<string, Response> {
    if p.name == name then p.entries + m else p.entries
  }

  function Update(s: Store, name: string, m: map<string, Response>): (r: Store)
    ensures |r| == |s|
    ensures forall i :: 0 <= i < |s| ==> r[i].name == s[i].name
    ensures forall i :: 0 <= i < |s| ==> r[i].entries == Written(s[i], name, m)
    ensures name in Names(s) ==> Entries(r, name) == Entries(s, name) + m
    ensures forall n :: n != name ==> Entries(r, n) == Entries(s, n)
  {
    if |s| == 0 then []
    else
      var head := if s[0].name == name then Partition(name, s[0].entries + m) else s[0];
      var r := [head] + Update(s[1..], name, m);
      assert r[1..] == Update(s[1..], name, m);
      assert Names(s[1..]) == Names(s)[1..];
      assert Names(s)[0] == s[0].name;
      r
  }

  /** `cache.put(key, response)` on partition `name`. */
  function Put(s: Store, name: string, key: string, v: Response): (r: Store)
    ensures Names(r) == Names(Open(s, name))
    ensures Entries(r, name) == Entries(s, name)[key := v]
    ensures forall n :: n != name ==> Entries(r, n) == Entries(s, n)
    ensures forall i :: 0 <= i < |r| ==> r[i].entries == Written(Open(s, name)[i], name, map[key := v])
  {
    var r := Write(s, name, map[key := v]);
    SingletonUnion(Entries(s, name), key, v);
    r
  }

  lemma SingletonUnion(e: map<string, Response>, key: string, v: Response)
    ensures e + map[key := v] == e[key := v]
  {
  }

  /** A key no partition held is, after being put anywhere, found with the
      value put: the write is what a later `caches.match` sees. */
  lemma PutThenMatch(s: Store, name: string, key: string, v: Response)
    requires Match(s, key).None?
    ensures Match(Put(s, name, key, v), key) == Some(v)
  {
    var r := Put(s, name, key, v);
    var k := PutHolds(s, name, key, v);
    PutHoldsOnly(s, name, key, v);
    MatchOnly(r, key, k, v);
  }

  /** The partition the key was put into. */
  lemma PutHolds(s: Store, name: string, key: string, v: Response) returns (k: int)
    ensures 0 <= k < |Put(s, name, key, v)| && key in Put(s, name, key, v)[k].entries
  {
    var o := Open(s, name);
    var r := Put(s, name, key, v);
    assert Names(r) == Names(o);
    k :| 0 <= k < |o| && Names(o)[k] == name;
    assert r[k].entries == Written(o[k], name, map[key := v]);
  }

  /** A key no partition held is, after the put, held only with the value
      put. */
  lemma PutHoldsOnly(s: Store, name: string, key: string, v: Response)
    requires Match(s, key).None?
    ensures forall i :: 0 <= i < |Put(s, name, key, v)| && key in Put(s, name, key, v)[i].entries ==>
              Put(s, name, key, v)[i].entries[key] == v
  {
    var o := Open(s, name);
    var r := Put(s, name, key, v);
    forall i | 0 <= i < |r|
      ensures key in r[i].entries ==> r[i].entries[key] == v
    {
      assert r[i].entries == Written(o[i], name, map[key := v]);
      if i < |s| {
        assert o[i] == s[i];
      }
    }
  }

  /** When every partition holding `key` holds it with `v`, and one does,
      `caches.match` finds `v`. */
  lemma {:induction false} MatchOnly(s: Store, key: string, k: int, v: Response)
    requires 0 <= k < |s| && key in s[k].entries
    requires forall i :: 0 <= i < |s| && key in s[i].entries ==> s[i].entries[key] == v
    ensures Match(s, key) == Some(v)
  {
    if key !in s[0].entries {
      MatchOnly(s[1..], key, k - 1, v);
    }
  }

  /** Putting one key leaves what `caches.match` finds for other keys. */
  lemma PutKeepsOtherMatches(s: Store, name: string, key: string, v: Response, other: string)
    requires other != key
    ensures Match(Put(s, name, key, v), other) == Match(s, other)
  {
    var o := Open(s, name);
    var r := Put(s, name, key, v);
    assert Names(r) == Names(o);
    assert forall i :: 0 <= i < |r| ==> (other in r[i].entries <==> other in o[i].entries);
    assert forall i :: 0 <= i < |r| && other in r[i].entries ==> r[i].entries[other] == o[i].entries[other];
    MatchAgree(r, o, other);
    if name !in Names(s) {
      assert o == s + [Partition(name, map[])];
      MatchSnocEmpty(s, name, other);
    }
  }

  lemma {:induction false} MatchAgree(a: Store, b: Store, key: string)
    requires |a| == |b|
    requires forall i :: 0 <= i < |a| ==> (key in a[i].entries <==> key in b[i].entries)
    requires forall i :: 0 <= i < |a| && key in a[i].entries ==> a[i].entries[key] == b[i].entries[key]
    ensures Match(a, key) == Match(b, key)
  {
    if |a| > 0 && key !in a[0].entries {
      MatchAgree(a[1..], b[1..], key);
    }
  }

  lemma {:induction false} MatchSnocEmpty(s: Store, name: string, key: string)
    ensures Match(s + [Partition(name, map[])], key) == Match(s, key)
  {
    if |s| > 0 && key !in s[0].entries {
      assert (s + [Partition(name, map[])])[1..] == s[1..] + [Partition(name, map[])];
      MatchSnocEmpty(s[1..], name, key);
    }
  }

  /** The store after `caches.delete(name)` for every partition name
      `doomed` selects; the remaining partitions keep their order. */
  function Drop(s: Store, doomed: string -> bool): (r: Store)
    ensures |r| <= |s|
    ensures forall p :: p in r <==> p in s && !doomed(p.name)
  {
    if |s| == 0 then []
    else if doomed(s[0].name) then Drop(s[1..], doomed)
    else [s[0]] + Drop(s[1..], doomed)
  }

  lemma {:induction false} DropNames(s: Store, doomed: string -> bool, n: string)
    ensures n in Names(Drop(s, doomed)) <==> n in Names(s) && !doomed(n)
  {
    var r := Drop(s, doomed);
    if n in Names(r) {
      var i :| 0 <= i < |r| && Names(r)[i] == n;
      assert r[i] in r;
      var j :| 0 <= j < |s| && s[j] == r[i];
      assert Names(s)[j] == n;
    }
    if n in Names(s) && !doomed(n) {
      var j :| 0 <= j < |s| && Names(s)[j] == n;
      assert s[j] in s;
      var i :| 0 <= i < |r| && r[i] == s[j];
      assert Names(r)[i] == n;
    }
  }

  lemma {:induction false} DropEntries(s: Store, doomed: string -> bool, n: string)
    requires !doomed(n)
    ensures Entries(Drop(s, doomed), n) == Entries(s, n)
  {
    if |s| > 0 {
      DropEntries(s[1..], doomed, n);
      if !doomed(s[0].name) {
        assert Drop(s, doomed)[1..] == Drop(s[1..], doomed);
      }
    }
  }

  lemma {:induction false} DropValid(s: Store, doomed: string -> bool)
    ensures Valid(s) ==> Valid(Drop(s, doomed))
  {
    if |s| > 0 && Valid(s) {
      DropValid(s[1..], doomed);
      var rest := Drop(s[1..], doomed);
      if !doomed(s[0].name) {
        var r := Drop(s, doomed);
        assert r[1..] == rest;
        forall j | 0 < j < |r|
          ensures r[0].name != r[j].name
        {
          assert r[j] in rest;
        }
      }
    }
  }

  lemma {:induction false} DropIsSubsequence(s: Store, doomed: string -> bool)
    ensures IsSubsequence(Drop(s, doomed), s)
  {
    if |s| > 0 {
      DropIsSubsequence(s[1..], doomed);
      var rest := Drop(s[1..], doomed);
      if doomed(s[0].name) {
        SubsequenceDropHead(rest, s);
      } else {
        assert Drop(s, doomed)[1..] == rest;
      }
    }
  }
}

=== FILE: filters.dfy ===
/** The truck listing: the filter form (price sliders, rating and
    availability checkboxes), the sort dropdown and the mock fleet they
    act on. Ratings are held in tenths (4.7 is 47) so that every
    comparison is an integer one. */
module Filters {
  import opened Optional
  import opened Seqs
  import opened Sorting

  /** A listed truck: the fields the filter and the sort read. */
  datatype Truck = Truck(id: string, name: string, ratingTenths: int, price: int, status: string)

  /** The mock fleet the page lists. */
  const AllTrucks: seq<Truck> := [
    Truck("truck-001", "Tata 407", 47, 12500, "Available"),
    Truck("truck-002", "Eicher Pro 3015", 45, 15000, "Available"),
    Truck("truck-003", "Ashok Leyland 2518", 48, 18000, "Available"),
    Truck("truck-004", "BharatBenz 1617", 49, 22000, "Available"),
    Truck("truck-005", "Mahindra Furio 14", 44, 14000, "Available"),
    Truck("truck-006", "Tata LPT 1613", 46, 16000, "Available")
  ]

  const DefaultMinPrice: int := 5000
  const DefaultMaxPrice: int := 25000

  // -----------------------------------------------------------------------
  // The filter

  /** The form as `applyFilters` reads it: each slider's value (`None`
      when the control is missing from the page), the checked rating
      thresholds and the checked availability values, in document order. */
  datatype Controls = Controls(priceMin: Option<int>, priceMax: Option<int>, ratings: seq<int>, availabilities: seq<string>)

  /** The value of a slider, or its default when the control is missing. */
  function Bound(slider: Option<int>, default: int): (r: int)
    ensures slider.None? ==> r == default
    ensures slider.Some? ==> r == slider.value
  {
    slider.GetOr(default)
  }

  /** The availability class a status falls into: only `"Available"` is
      available, every other status counts as scheduled. */
  function StatusClass(status: string): (r: string)
    ensures r == "available" <==> status == "Available"
    ensures r == "available" || r == "scheduled"
  {
    if status == "Available" then "available" else "scheduled"
  }

  /** `ratings.some(rating => truck.rating >= rating)`, in tenths. */
  predicate MeetsSomeThreshold(ratingTenths: int, thresholds: seq<int>) {
    exists i :: 0 <= i < |thresholds| && ratingTenths >= 10 * thresholds[i]
  }

  /** The filter predicate: price within the bounds, both ends included;
      a rating at or above some checked threshold, when any is checked;
      an availability class among the checked ones, when any is checked. */
  predicate Keep(t: Truck, c: Controls) {
    && Bound(c.priceMin, DefaultMinPrice) <= t.price <= Bound(c.priceMax, DefaultMaxPrice)
    && (|c.ratings| > 0 ==> MeetsSomeThreshold(t.ratingTenths, c.ratings))
    && (|c.availabilities| > 0 ==> StatusClass(t.status) in c.availabilities)
  }

  /** `applyFilters` before it sorts: the trucks that pass, in fleet
      order, nothing added and nothing repeated. */
  function ApplyFilters(trucks: seq<Truck>, c: Controls): (r: seq<Truck>)
    ensures forall t :: t in r <==> t in trucks && Keep(t, c)
    ensures IsSubsequence(r, trucks)
    ensures forall t :: multiset(r)[t] == if Keep(t, c) then multiset(trucks)[t] else 0
  {
    var keep := (t: Truck) => Keep(t, c);
    FilterIsSubsequence(trucks, keep);
    forall t
      ensures multiset(Filter(trucks, keep))[t] == if Keep(t, c) then multiset(trucks)[t] else 0
    {
      FilterMultiset(trucks, keep, t);
    }
    Filter(trucks, keep)
  }

  /** With no box checked only the price bounds constrain the listing. */
  lemma UncheckedBoxesOnlyPrice(trucks: seq<Truck>, lo: Option<int>, hi: Option<int>, t: Truck)
    ensures t in ApplyFilters(trucks, Controls(lo, hi, [], [])) <==>
              t in trucks && Bound(lo, DefaultMinPrice) <= t.price <= Bound(hi, DefaultMaxPrice)
  {
  }

  /** With the default bounds and nothing checked, the whole mock fleet is
      listed. */
  lemma DefaultsKeepAllMockTrucks()
    ensures ApplyFilters(AllTrucks, Controls(None, None, [], [])) == AllTrucks
  {
    var c := Controls(None, None, [], []);
    forall i | 0 <= i < |AllTrucks|
      ensures Keep(AllTrucks[i], c)
    {
    }
    FilterKeepsAll(AllTrucks, (t: Truck) => Keep(t, c));
  }

  lemma {:induction false} FilterKeepsAll(s: seq<Truck>, keep: Truck -> bool)
    requires forall i :: 0 <= i < |s| ==> keep(s[i])
    ensures Filter(s, keep) == s
  {
    if |s| > 0 {
      FilterKeepsAll(s[1..], keep);
    }
  }

  // -----------------------------------------------------------------------
  // The sort

  /** `sortBy?.value || 'recommended'`: a missing dropdown or an empty
      value means the recommended order. */
  function SortMode(dropdown: Option<string>): (r: string)
    ensures r != ""
    ensures dropdown.Some? && dropdown.value != "" ==> r == dropdown.value
    ensures dropdown.None? || dropdown.value == "" ==> r == "recommended"
  {
    if dropdown.None? || dropdown.value == "" then "recommended" else dropdown.value
  }

  function PriceKey(t: Truck): int { t.price }
  function PriceDescKey(t: Truck): int { -t.price }
  function RatingDescKey(t: Truck): int { -t.ratingTenths }

  /** Available trucks rank before all others. */
  function AvailabilityRank(t: Truck): (r: int)
    ensures r == 0 <==> t.status == "Available"
    ensures r == 0 || r == 1
  {
    if t.status == "Available" then 0 else 1
  }

  /** The orders the dropdown selects. */
  datatype SortOrder = PriceLow | PriceHigh | RatingBest | AvailableFirst

  /** The `switch` on the mode: every value that is not one of the four
      named ones, `"recommended"` included, sorts by rating, best first. */
  function OrderOf(mode: string): (r: SortOrder)
    ensures r == PriceLow <==> mode == "price-low"
    ensures r == PriceHigh <==> mode == "price-high"
    ensures r == AvailableFirst <==> mode == "availability"
    ensures r == RatingBest <==> mode !in ["price-low", "price-high", "availability"]
  {
    match mode
    case "price-low" => PriceLow
    case "price-high" => PriceHigh
    case "rating" => RatingBest
    case "availability" => AvailableFirst
    case _ => RatingBest
  }

  /** The key whose order each comparator imposes. */
  function KeyFor(order: SortOrder): Truck -> int {
    match order
    case PriceLow => PriceKey
    case PriceHigh => PriceDescKey
    case RatingBest => RatingDescKey
    case AvailableFirst => AvailabilityRank
  }

  /** `applySorting`: a stable sort of the listing in the chosen order. */
  function ApplySorting(trucks: seq<Truck>, dropdown: Option<string>): (r: seq<Truck>)
    ensures multiset(r) == multiset(trucks)
    ensures SortedBy(r, KeyFor(OrderOf(SortMode(dropdown))))
  {
    var key := KeyFor(OrderOf(SortMode(dropdown)));
    SortPermutes(trucks, key);
    SortSorted(trucks, key);
    Sort(trucks, key)
  }

  /** What each order means for the listing: prices rising or falling,
      ratings falling, or every available truck ahead of the others. */
  lemma SortingOrders(trucks: seq<Truck>, dropdown: Option<string>)
    ensures var r := ApplySorting(trucks, dropdown);
            && (SortMode(dropdown) == "price-low" ==>
                  forall i, j :: 0 <= i < j < |r| ==> r[i].price <= r[j].price)
            && (SortMode(dropdown) == "price-high" ==>
                  forall i, j :: 0 <= i < j < |r| ==> r[i].price >= r[j].price)
            && (SortMode(dropdown) !in ["price-low", "price-high", "availability"] ==>
                  forall i, j :: 0 <= i < j < |r| ==> r[i].ratingTenths >= r[j].ratingTenths)
            && (SortMode(dropdown) == "availability" ==>
                  forall i, j :: 0 <= i < j < |r| && r[j].status == "Available" ==> r[i].status == "Available")
  {
    var r := ApplySorting(trucks, dropdown);
    var order := OrderOf(SortMode(dropdown));
    match order
    case PriceLow =>
      assert forall i, j :: 0 <= i < j < |r| ==> PriceKey(r[i]) <= PriceKey(r[j]);
    case PriceHigh =>
      assert forall i, j :: 0 <= i < j < |r| ==> PriceDescKey(r[i]) <= PriceDescKey(r[j]);
    case RatingBest =>
      assert forall i, j :: 0 <= i < j < |r| ==> RatingDescKey(r[i]) <= RatingDescKey(r[j]);
    case AvailableFirst =>
      assert forall i, j :: 0 <= i < j < |r| ==> AvailabilityRank(r[i]) <= AvailabilityRank(r[j]);
  }

  /** Ordering by availability keeps the original order among available
      trucks and among all the others, since the comparator returns 0 for
      two equal statuses. */
  lemma AvailabilitySortIsStable(trucks: seq<Truck>, rank: int)
    ensures WithKey(ApplySorting(trucks, Some("availability")), AvailabilityRank, rank)
         == WithKey(trucks, AvailabilityRank, rank)
  {
    SortIsStable(trucks, AvailabilityRank, rank);
  }

  /** `applyFilters` as a whole: filter the fleet, then sort. */
  function Listing(trucks: seq<Truck>, c: Controls, dropdown: Option<string>): (r: seq<Truck>)
    ensures forall t :: t in r <==> t in trucks && Keep(t, c)
    ensures |r| <= |trucks|
  {
    var kept := ApplyFilters(trucks, c);
    var r := ApplySorting(kept, dropdown);
    assert forall t :: t in r <==> t in multiset(kept);
    r
  }

  function Prices(trucks: seq<Truck>): (r: seq<int>)
    ensures |r| == |trucks|
    ensures forall i :: 0 <= i < |trucks| ==> r[i] == trucks[i].price
  {
    seq(|trucks|, i requires 0 <= i < |trucks| => trucks[i].price)
  }

  /** The mock fleet listed by price, highest first. */
  lemma MockFleetByPriceHigh()
    ensures Prices(Listing(AllTrucks, Controls(None, None, [], []), Some("price-high")))
         == [22000, 18000, 16000, 15000, 14000, 12500]
  {
    MockListingByPriceHigh();
    PricesOfSix(Listing(AllTrucks, Controls(None, None, [], []), Some("price-high")), AllTrucks);
  }

  lemma MockListingByPriceHigh()
    ensures Listing(AllTrucks, Controls(None, None, [], []), Some("price-high"))
         == [AllTrucks[3], AllTrucks[2], AllTrucks[5], AllTrucks[1], AllTrucks[4], AllTrucks[0]]
  {
    DefaultsKeepAllMockTrucks();
    ListingUnfiltered(AllTrucks, Controls(None, None, [], []), Some("price-high"));
    PriceHighMode(AllTrucks);
    MockSortByPriceHigh();
  }

  lemma ListingUnfiltered(trucks: seq<Truck>, c: Controls, dropdown: Option<string>)
    requires ApplyFilters(trucks, c) == trucks
    ensures Listing(trucks, c, dropdown) == ApplySorting(trucks, dropdown)
  {
  }

  lemma PriceHighMode(trucks: seq<Truck>)
    ensures ApplySorting(trucks, Some("price-high")) == Sort(trucks, PriceDescKey)
  {
    assert SortMode(Some("price-high")) == "price-high";
    assert OrderOf("price-high") == PriceHigh;
  }

  lemma MockSortByPriceHigh()
    ensures Sort(AllTrucks, PriceDescKey)
         == [AllTrucks[3], AllTrucks[2], AllTrucks[5], AllTrucks[1], AllTrucks[4], AllTrucks[0]]
  {
    var a := AllTrucks;
    assert a[3].price > a[2].price > a[5].price > a[1].price > a[4].price > a[0].price;
    SortSix(a, PriceDescKey);
  }

  lemma PricesOfSix(r: seq<Truck>, a: seq<Truck>)
    requires |a| == 6 && r == [a[3], a[2], a[5], a[1], a[4], a[0]]
    requires a[3].price == 22000 && a[2].price == 18000 && a[5].price == 16000
    requires a[1].price == 15000 && a[4].price == 14000 && a[0].price == 12500
    ensures Prices(r) == [22000, 18000, 16000, 15000, 14000, 12500]
  {
  }

  // -----------------------------------------------------------------------
  // The price sliders

  /** The two slider values. */
  datatype Sliders = Sliders(min: int, max: int)

  /** An input event on the lower slider: a value above the upper slider
      is pulled down to it. */
  function OnMinInput(s: Sliders, v: int): (r: Sliders)
    ensures r.max == s.max
    ensures r.min <= r.max
    ensures v <= s.max ==> r.min == v
    ensures r.min == v || r.min == s.max
  {
    if v > s.max then Sliders(s.max, s.max) else Sliders(v, s.max)
  }

  /** An input event on the upper slider: a value below the lower slider
      is pushed up to it. */
  function OnMaxInput(s: Sliders, v: int): (r: Sliders)
    ensures r.min == s.min
    ensures r.min <= r.max
    ensures v >= s.min ==> r.max == v
    ensures r.max == v || r.max == s.min
  {
    if v < s.min then Sliders(s.min, s.min) else Sliders(s.min, v)
  }

  /** The form's reset handler restores the default bounds. */
  function OnReset(): (r: Sliders)
    ensures r.min <= r.max
    ensures r == Sliders(DefaultMinPrice, DefaultMaxPrice)
  {
    Sliders(5000, 25000)
  }
}

=== FILE: homepage.dfy ===
/** The home page: the city autocomplete on the pickup and delivery
    fields (matching, the keyboard-driven selection, choosing an item) and
    the quick-booking form's checks. */
module Homepage {
  import opened Optional
  import opened Text
  import opened Seqs
  import opened Validation

  datatype City = City(city: string, state: string)

  /** The cities the autocomplete offers, in the order it offers them. */
  const CitiesData: seq<City> := [
    City("Mumbai", "Maharashtra"),
    City("Delhi", "Delhi"),
    City("Bangalore", "Karnataka"),
    City("Hyderabad", "Telangana"),
    City("Chennai", "Tamil Nadu"),
    City("Kolkata", "West Bengal"),
    City("Pune", "Maharashtra"),
    City("Ahmedabad", "Gujarat"),
    City("Surat", "Gujarat"),
    City("Jaipur", "Rajasthan"),
    City("Lucknow", "Uttar Pradesh"),
    City("Kanpur", "Uttar Pradesh"),
    City("Nagpur", "Maharashtra"),
    City("Indore", "Madhya Pradesh"),
    City("Bhopal", "Madhya Pradesh"),
    City("Visakhapatnam", "Andhra Pradesh"),
    City("Coimbatore", "Tamil Nadu"),
    City("Kochi", "Kerala"),
    City("Vadodara", "Gujarat"),
    City("Gurgaon", "Haryana")
  ]

  /** At most this many suggestions are shown. */
  const MaxSuggestions: nat := 8

  // -----------------------------------------------------------------------
  // Matching

  /** The city's name or its state contains the (already lower-cased)
      query, ignoring case. */
  predicate CityMatches(c: City, lowerQuery: string) {
    Contains(Lower(c.city), lowerQuery) || Contains(Lower(c.state), lowerQuery)
  }

  /** The first `cap` cities of `data` that match, in data order. */
  function FirstMatches(data: seq<City>, lowerQuery: string, cap: nat): (r: seq<City>)
    ensures |r| <= cap
    ensures forall c :: c in r ==> c in data && CityMatches(c, lowerQuery)
    ensures IsSubsequence(r, data)
    ensures |r| < cap ==> forall c :: c in data && CityMatches(c, lowerQuery) ==> c in r
  {
    if |data| == 0 || cap == 0 then []
    else
      var rest := FirstMatches(data[1..], lowerQuery, if CityMatches(data[0], lowerQuery) then cap - 1 else cap);
      if CityMatches(data[0], lowerQuery) then
        assert ([data[0]] + rest)[1..] == rest;
        [data[0]] + rest
      else
        SubsequenceDropHead(rest, data);
        assert forall c :: c in data ==> c == data[0] || c in data[1..];
        rest
  }

  /** `filterCities`: the matching cities, in data order, capped at eight. */
  function FilterCities(data: seq<City>, query: string): (r: seq<City>)
    ensures |r| <= MaxSuggestions
    ensures IsSubsequence(r, data)
    ensures forall c :: c in r ==> c in data && CityMatches(c, Lower(query))
    ensures |r| < MaxSuggestions ==> forall c :: c in data && CityMatches(c, Lower(query)) ==> c in r
  {
    FirstMatches(data, Lower(query), MaxSuggestions)
  }

  /** Matching ignores the case of the query. */
  lemma FilterCitiesIgnoresCase(data: seq<City>, q1: string, q2: string)
    requires Lower(q1) == Lower(q2)
    ensures FilterCities(data, q1) == FilterCities(data, q2)
  {
  }

  /** Every matching city of `data`, in data order: the reference the
      capped search is measured against. */
  function AllMatches(data: seq<City>, lowerQuery: string): (r: seq<City>)
    ensures IsSubsequence(r, data)
    ensures forall c :: c in r <==> c in data && CityMatches(c, lowerQuery)
  {
    if |data| == 0 then []
    else
      var rest := AllMatches(data[1..], lowerQuery);
      assert forall c :: c in data ==> c == data[0] || c in data[1..];
      if CityMatches(data[0], lowerQuery) then
        assert ([data[0]] + rest)[1..] == rest;
        [data[0]] + rest
      else
        SubsequenceDropHead(rest, data);
        rest
  }

  /** The capped search returns exactly the first `cap` of all matches:
      `filter` followed by `slice(0, cap)`. */
  lemma {:induction false} FirstMatchesArePrefix(data: seq<City>, lowerQuery: string, cap: nat)
    ensures var all := AllMatches(data, lowerQuery);
            FirstMatches(data, lowerQuery, cap) == all[..if |all| <= cap then |all| else cap]
  {
    if |data| > 0 && cap > 0 {
      var m := CityMatches(data[0], lowerQuery);
      FirstMatchesArePrefix(data[1..], lowerQuery, if m then cap - 1 else cap);
      if m {
        var all := AllMatches(data, lowerQuery);
        var rest := AllMatches(data[1..], lowerQuery);
        assert all == [data[0]] + rest;
        var k := if |rest| <= cap - 1 then |rest| else cap - 1;
        assert all[..k + 1] == [data[0]] + rest[..k];
      }
    }
  }

  /** With fewer than eight matches the search lists them all. */
  lemma FilterCitiesUncapped(data: seq<City>, query: string)
    requires |AllMatches(data, Lower(query))| <= MaxSuggestions
    ensures FilterCities(data, query) == AllMatches(data, Lower(query))
  {
    FirstMatchesArePrefix(data, Lower(query), MaxSuggestions);
  }

  // -----------------------------------------------------------------------
  // The autocomplete's state

  /** One autocomplete: the text field's value, the rendered suggestion
      items (they stay in the list when it is hidden), whether the list is
      shown, `selectedIndex`, and the value of the companion hidden field
      `<id>-selected`, `None` on a page that has no such field. */
  datatype Autocomplete = Autocomplete(input: string, items: seq<City>, open: bool, selected: int, hidden: Option<string>)

  /** `hideSuggestions`: close the list and clear the selection. */
  function Hide(a: Autocomplete): (r: Autocomplete)
    ensures !r.open && r.selected == -1
    ensures r.input == a.input && r.items == a.items && r.hidden == a.hidden
  {
    a.(open := false, selected := -1)
  }

  /** `handleInput` (also run on focus) after the field's value became
      `value`: a blank query closes the list; otherwise the matches are
      rendered, or the list closes when there are none. Rendering keeps
      `selectedIndex` as it was. */
  function OnInput(a: Autocomplete, value: string): (r: Autocomplete)
    ensures r.input == value && r.hidden == a.hidden
    ensures Trim(value) == [] ==> r == Hide(a.(input := value))
    ensures r.open <==> Trim(value) != [] && FilterCities(CitiesData, Trim(value)) != []
    ensures r.open ==> r.items == FilterCities(CitiesData, Trim(value)) && r.selected == a.selected
    ensures !r.open ==> r.selected == -1
  {
    var b := a.(input := value);
    var query := Trim(value);
    if |query| < 1 then Hide(b)
    else
      var found := FilterCities(CitiesData, query);
      if |found| == 0 then Hide(b) else b.(items := found, open := true)
  }

  /** `selectItem`: the value goes into the field, and into the hidden
      field when the page has one, and the list closes. */
  function SelectItem(a: Autocomplete, value: string): (r: Autocomplete)
    ensures r.input == value
    ensures r.hidden.Some? <==> a.hidden.Some?
    ensures a.hidden.Some? ==> r.hidden == Some(value)
    ensures !r.open && r.selected == -1 && r.items == a.items
  {
    var b := a.(input := value);
    Hide(if a.hidden.Some? then b.(hidden := Some(value)) else b)
  }

  datatype Key = ArrowDown | ArrowUp | Enter | Escape | OtherKey

  /** `handleKeydown`, over the items currently in the list. */
  function OnKeydown(a: Autocomplete, key: Key): (r: Autocomplete)
    ensures key == ArrowDown ==> r == a.(selected := Min(a.selected + 1, |a.items| - 1))
    ensures key == ArrowUp ==> r == a.(selected := Max(a.selected - 1, 0))
    ensures key == Enter && 0 <= a.selected < |a.items| ==> r == SelectItem(a, a.items[a.selected].city)
    ensures key == Enter && !(0 <= a.selected < |a.items|) ==> r == a
    ensures key == Escape ==> r == Hide(a)
    ensures key == OtherKey ==> r == a
  {
    match key
    case ArrowDown => a.(selected := Min(a.selected + 1, |a.items| - 1))
    case ArrowUp => a.(selected := Max(a.selected - 1, 0))
    case Enter =>
      if a.selected >= 0 && a.selected < |a.items| then SelectItem(a, a.items[a.selected].city) else a
    case Escape => Hide(a)
    case OtherKey => a
  }

  function Min(x: int, y: int): (r: int)
    ensures r <= x && r <= y && (r == x || r == y)
  {
    if x <= y then x else y
  }

  function Max(x: int, y: int): (r: int)
    ensures r >= x && r >= y && (r == x || r == y)
  {
    if x >= y then x else y
  }

  /** The arrow keys keep the selection on the list: down never passes the
      last item, and up never goes above the first. */
  lemma ArrowsStayOnList(a: Autocomplete)
    requires -1 <= a.selected < |a.items|
    ensures -1 <= OnKeydown(a, ArrowDown).selected < |a.items|
    ensures |a.items| > 0 ==> 0 <= OnKeydown(a, ArrowDown).selected
    ensures |a.items| > 0 ==> 0 <= OnKeydown(a, ArrowUp).selected < |a.items|
  {
  }

  /** Up undoes down, and down undoes up, away from the ends of the list. */
  lemma ArrowsAreInverse(a: Autocomplete)
    ensures 0 <= a.selected < |a.items| - 1 ==> OnKeydown(OnKeydown(a, ArrowDown), ArrowUp) == a
    ensures 0 < a.selected < |a.items| ==> OnKeydown(OnKeydown(a, ArrowUp), ArrowDown) == a
  {
  }

  /** `k` presses of the down arrow from no selection land on item
      `k - 1`, and stop at the last item. */
  lemma {:induction false} ArrowDownRepeated(a: Autocomplete, k: nat)
    requires a.selected == -1 && |a.items| > 0
    ensures PressDown(a, k).selected == Min(k - 1, |a.items| - 1)
    ensures PressDown(a, k).items == a.items
  {
    if k > 0 {
      ArrowDownRepeated(a, k - 1);
    }
  }

  /** The state after `k` presses of the down arrow. */
  function PressDown(a: Autocomplete, k: nat): (r: Autocomplete)
    ensures r.input == a.input && r.open == a.open && r.hidden == a.hidden
  {
    if k == 0 then a else OnKeydown(PressDown(a, k - 1), ArrowDown)
  }

  /** Enter changes anything only when the selection is an item of the
      list; it then chooses that item's city, into the hidden field too
      when there is one, and leaves no selection. */
  lemma EnterChoosesOnlyASelectedItem(a: Autocomplete)
    ensures OnKeydown(a, Enter) != a ==> 0 <= a.selected < |a.items|
    ensures 0 <= a.selected < |a.items| ==>
              var r := OnKeydown(a, Enter);
              && r.input == a.items[a.selected].city
              && (a.hidden.Some? ==> r.hidden == Some(a.items[a.selected].city))
              && r.selected == -1
  {
  }

  /** Since rendering keeps the selection, a selection can outlive its
      list: once a shorter list is rendered, Enter chooses nothing while the
      old index is past its end. */
  lemma StaleSelectionIsIgnored(a: Autocomplete, found: seq<City>)
    requires |found| <= a.selected
    ensures var rendered := a.(items := found, open := true);
            OnKeydown(rendered, Enter) == rendered
  {
  }

  // -----------------------------------------------------------------------
  // The quick-booking form

  datatype BookingError = PickupMissing | DeliveryMissing | TruckTypeMissing | SameLocations

  /** The alert each refusal shows. */
  function Alert(e: BookingError): (r: string)
    ensures r != []
  {
    match e
    case PickupMissing => "Please enter pickup location"
    case DeliveryMissing => "Please enter delivery location"
    case TruckTypeMissing => "Please select truck type"
    case SameLocations => "Pickup and delivery locations must be different"
  }

  /** The search stored for the booking page (its timestamp left out). */
  datatype SearchData = SearchData(pickup: string, delivery: string, truckType: string)

  datatype SubmitResult = Rejected(error: BookingError) | Stored(search: SearchData)

  /** The form's checks, in order, on the trimmed locations and the truck
      type as selected. */
  function BookingChecks(pickup: string, delivery: string, truckType: string): (r: seq<Check<BookingError>>)
    ensures |r| == 4
    ensures forall i :: 0 <= i < 4 ==> r[i].error == [PickupMissing, DeliveryMissing, TruckTypeMissing, SameLocations][i]
    ensures r[0].passes <==> pickup != []
    ensures r[1].passes <==> delivery != []
    ensures r[2].passes <==> truckType != []
    ensures r[3].passes <==> Lower(pickup) != Lower(delivery)
  {
    [ Check(pickup != [], PickupMissing),
      Check(delivery != [], DeliveryMissing),
      Check(truckType != [], TruckTypeMissing),
      Check(Lower(pickup) != Lower(delivery), SameLocations) ]
  }

  /** The submit handler on the trimmed locations: the first failing
      check is alerted, and otherwise the values are stored. */
  function Submit(pickup: string, delivery: string, truckType: string): (r: SubmitResult)
    ensures r.Stored? ==> r.search == SearchData(pickup, delivery, truckType)
    ensures r.Stored? <==> pickup != [] && delivery != [] && truckType != [] && Lower(pickup) != Lower(delivery)
    ensures r.Rejected? ==>
              exists i :: FailsFirstAt(BookingChecks(pickup, delivery, truckType), i)
                          && BookingChecks(pickup, delivery, truckType)[i].error == r.error
  {
    match FirstFailure(BookingChecks(pickup, delivery, truckType))
    case Some(e) => Rejected(e)
    case None => Stored(SearchData(pickup, delivery, truckType))
  }

  /** The form's submit handler: the pickup and delivery fields are
      trimmed, the truck type is taken as selected. */
  function SubmitQuickBooking(pickupValue: string, deliveryValue: string, truckType: string): (r: SubmitResult)
    ensures r.Stored? ==> r.search.pickup == Trim(pickupValue) && r.search.delivery == Trim(deliveryValue)
    ensures r.Stored? ==> r.search.pickup != [] && r.search.delivery != [] && r.search.truckType != []
  {
    Submit(Trim(pickupValue), Trim(deliveryValue), truckType)
  }

  /** The order of the checks: each is reported only when all before it
      pass. */
  lemma BookingCheckOrder(pickup: string, delivery: string, truckType: string)
    ensures pickup == [] ==> Submit(pickup, delivery, truckType) == Rejected(PickupMissing)
    ensures pickup != [] && delivery == [] ==> Submit(pickup, delivery, truckType) == Rejected(DeliveryMissing)
    ensures (pickup != [] && delivery != [] && truckType == []) ==>
              Submit(pickup, delivery, truckType) == Rejected(TruckTypeMissing)
    ensures (pickup != [] && delivery != [] && truckType != [] && Lower(pickup) == Lower(delivery)) ==>
              Submit(pickup, delivery, truckType) == Rejected(SameLocations)
  {
    FirstFailureOfFour(BookingChecks(pickup, delivery, truckType));
  }

  /** Locations that differ only in case, or only in surrounding white
      space, count as the same. */
  lemma SameCityInOtherCase(pickupValue: string, deliveryValue: string, truckType: string)
    requires Trim(pickupValue) != [] && truckType != []
    requires Lower(Trim(pickupValue)) == Lower(Trim(deliveryValue))
    ensures SubmitQuickBooking(pickupValue, deliveryValue, truckType) == Rejected(SameLocations)
  {
    var p, d := Trim(pickupValue), Trim(deliveryValue);
    assert |Lower(d)| == |Lower(p)|;
    BookingCheckOrder(p, d, truckType);
  }
}

=== FILE: optional.dfy ===
/** The absent-or-present value the front-end expresses with `undefined`,
    `null` and missing DOM elements. */
module Optional {

  datatype Option<+T> = None | Some(value: T) {

    /** The value, or `default` when absent (JavaScript's `x || default`
        for values that are never falsy when present). */
    function GetOr(default: T): T {
      match this
      case Some(v) => v
      case None => default
    }
  }
}

=== FILE: payment.dfy ===
/** The checkout page: the insurance add-on and the amount it shows and
    charges, the ordered checks behind the pay button, the booking id, and
    the card-number and expiry input formatters. */
module Payment {
  import opened Optional
  import opened Text
  import opened Validation

  // -----------------------------------------------------------------------
  // Amounts

  const BaseTotal: int := 12500
  const InsuranceCost: int := 500

  /** What the order summary shows after the insurance box changes: the
      total, which the pay button also shows until a payment goes through
      and resets its label to the base total, and whether the insurance
      line is hidden. */
  datatype Summary = Summary(total: int, insuranceLineHidden: bool)

  function OnInsuranceChange(checked: bool): (r: Summary)
    ensures r.total == BaseTotal + (if checked then InsuranceCost else 0)
    ensures r.insuranceLineHidden <==> !checked
  {
    if checked then Summary(BaseTotal + InsuranceCost, false)
    else Summary(BaseTotal, true)
  }

  /** The amount recorded with a confirmed booking; `insurance` is the
      checkbox's state, `None` when the page has no such box. */
  function ChargedAmount(insurance: Option<bool>): (r: int)
    ensures r == BaseTotal + InsuranceCost <==> insurance == Some(true)
    ensures r == BaseTotal <==> insurance != Some(true)
  {
    if insurance.Some? && insurance.value then BaseTotal + InsuranceCost else BaseTotal
  }

  /** The amount shown is the amount charged, and unticking the box after
      ticking it shows the original total again. */
  lemma ShownIsCharged(checked: bool)
    ensures OnInsuranceChange(checked).total == ChargedAmount(Some(checked))
    ensures OnInsuranceChange(true).total == 13000
    ensures OnInsuranceChange(false).total == BaseTotal
  {
  }

  // -----------------------------------------------------------------------
  // The pay button

  /** The page state `handlePayment` reads. `None` stands for an element
      the page does not have; `activeTab` is the active tab's method. */
  datatype Checkout = Checkout(
    formValid: Option<bool>,
    termsChecked: Option<bool>,
    activeTab: Option<string>,
    upiChoice: Option<string>,
    upiId: Option<string>,
    cardNumber: Option<string>)

  datatype PaymentError = FormInvalid | TermsNotAccepted | UpiIdMissing | CardMissing

  /** The notification each refusal shows (an invalid form reports its
      own fields instead). */
  function Message(e: PaymentError): (r: Option<string>)
    ensures r.None? <==> e == FormInvalid
  {
    match e
    case FormInvalid => None
    case TermsNotAccepted => Some("Please accept the Terms & Conditions")
    case UpiIdMissing => Some("Please enter your UPI ID")
    case CardMissing => Some("Please enter card details")
  }

  datatype PaymentResult = Refused(error: PaymentError) | Processing(paymentMethod: string)

  /** The payment method: the active tab's, UPI when no tab is active. */
  function PaymentMethod(c: Checkout): (r: string)
    ensures c.activeTab.None? ==> r == "upi"
    ensures c.activeTab.Some? ==> r == c.activeTab.value
  {
    c.activeTab.GetOr("upi")
  }

  /** A present field whose trimmed value is empty. */
  predicate Blank(field: Option<string>) {
    field.Some? && Trim(field.value) == []
  }

  /** The four checks of `handlePayment`, in the order it makes them. */
  function PaymentChecks(c: Checkout): (r: seq<Check<PaymentError>>)
    ensures |r| == 4
    ensures r[0] == Check(c.formValid != Some(false), FormInvalid)
    ensures r[1] == Check(c.termsChecked != Some(false), TermsNotAccepted)
    ensures r[2].error == UpiIdMissing && r[3].error == CardMissing
    ensures !r[2].passes <==> PaymentMethod(c) == "upi" && c.upiChoice == Some("upi-id") && Blank(c.upiId)
    ensures !r[3].passes <==> PaymentMethod(c) == "card" && Blank(c.cardNumber)
  {
    var chosen := PaymentMethod(c);
    [ Check(c.formValid != Some(false), FormInvalid),
      Check(c.termsChecked != Some(false), TermsNotAccepted),
      Check(!(chosen == "upi" && c.upiChoice == Some("upi-id") && Blank(c.upiId)), UpiIdMissing),
      Check(!(chosen == "card" && Blank(c.cardNumber)), CardMissing) ]
  }

  /** `handlePayment`: the first failing check refuses the payment;
      otherwise processing starts with the chosen method. */
  function HandlePayment(c: Checkout): (r: PaymentResult)
    ensures r.Processing? <==> forall i :: 0 <= i < 4 ==> PaymentChecks(c)[i].passes
    ensures r.Processing? ==> r.paymentMethod == PaymentMethod(c)
    ensures r.Refused? ==> exists i :: FailsFirstAt(PaymentChecks(c), i) && PaymentChecks(c)[i].error == r.error
  {
    match FirstFailure(PaymentChecks(c))
    case Some(e) => Refused(e)
    case None => Processing(PaymentMethod(c))
  }

  /** The order of the checks: an invalid form is reported whatever else
      is wrong; unaccepted terms are reported whatever the payment fields
      hold; a blank UPI id or card number only once both pass. */
  lemma PaymentCheckOrder(c: Checkout)
    ensures c.formValid == Some(false) ==> HandlePayment(c) == Refused(FormInvalid)
    ensures c.formValid != Some(false) && c.termsChecked == Some(false) ==> HandlePayment(c) == Refused(TermsNotAccepted)
    ensures (&& c.formValid != Some(false) && c.termsChecked != Some(false) && PaymentMethod(c) == "upi"
             && c.upiChoice == Some("upi-id") && Blank(c.upiId))
            ==> HandlePayment(c) == Refused(UpiIdMissing)
    ensures (&& c.formValid != Some(false) && c.termsChecked != Some(false) && PaymentMethod(c) == "card"
             && Blank(c.cardNumber))
            ==> HandlePayment(c) == Refused(CardMissing)
  {
    FirstFailureOfFour(PaymentChecks(c));
  }

  /** With no active tab the payment goes ahead as UPI when nothing else
      is wrong, and a card number is never asked for. */
  lemma NoActiveTabMeansUpi(c: Checkout)
    requires c.activeTab.None?
    requires c.formValid != Some(false) && c.termsChecked != Some(false)
    requires !(c.upiChoice == Some("upi-id") && Blank(c.upiId))
    ensures HandlePayment(c) == Processing("upi")
  {
  }

  // -----------------------------------------------------------------------
  // Booking id

  /** `generateBookingId`: `"FF"`, the last eight digits of the clock in
      milliseconds, and the random draw `Math.floor(Math.random() * 1000)`
      zero-padded to three digits. */
  function BookingId(now: nat, roll: nat): (r: string)
    requires roll < 1000
    ensures |r| == 2 + (if |Decimal(now)| <= 8 then |Decimal(now)| else 8) + 3
    ensures r[..2] == "FF"
  {
    var random := Decimal(roll);
    DecimalLength(roll, 3);
    "FF" + LastChars(Decimal(now), 8) + PadZeros(random, 3)
  }

  /** Once the clock has eight digits the id is thirteen characters long,
      and its two fields read back as the clock modulo 10^8 and the draw. */
  lemma BookingIdFields(now: nat, roll: nat)
    requires roll < 1000
    ensures var id := BookingId(now, roll);
            var stamp := id[2..|id| - 3];
            var tail := id[|id| - 3..];
            && AllDigits(stamp) && AllDigits(tail)
            && ParseDecimal(stamp) == now % 100000000
            && ParseDecimal(tail) == roll
            && (now >= 10000000 ==> |id| == 13)
  {
    BookingIdParts(now, roll);
    PaddedDraw(roll);
    LastDigitsAreRemainder(now, 8);
    assert Pow10(8) == 100000000;
    if now >= 10000000 {
      assert Pow10(7) == 10000000;
      DecimalLength(now, 7);
    }
  }

  /** The id is the prefix, the stamp and the padded draw, side by side. */
  lemma BookingIdParts(now: nat, roll: nat)
    requires roll < 1000
    ensures var id := BookingId(now, roll);
            && id[2..|id| - 3] == LastChars(Decimal(now), 8)
            && id[|id| - 3..] == PadZeros(Decimal(roll), 3)
  {
    var id := BookingId(now, roll);
    var stamp := LastChars(Decimal(now), 8);
    DecimalLength(roll, 3);
    var padded := PadZeros(Decimal(roll), 3);
    assert |padded| == 3;
    assert id == "FF" + stamp + padded;
    assert id[2..|id| - 3] == stamp;
    assert id[|id| - 3..] == padded;
  }

  /** A draw below 1000, padded to three digits, reads back as itself. */
  lemma PaddedDraw(roll: nat)
    requires roll < 1000
    ensures |PadZeros(Decimal(roll), 3)| == 3
    ensures AllDigits(PadZeros(Decimal(roll), 3))
    ensures ParseDecimal(PadZeros(Decimal(roll), 3)) == roll
  {
    DecimalLength(roll, 3);
    var random := Decimal(roll);
    var padded := PadZeros(random, 3);
    var zeros := padded[..3 - |random|];
    assert padded == zeros + random;
    ParseLeadingZeros(zeros, random);
    DecimalRoundTrip(roll);
  }

  // -----------------------------------------------------------------------
  // Card number

  /** Consecutive groups of four characters joined by single spaces (the
      last group holds what is left, one to four characters). */
  function GroupsOfFour(s: string): (r: string)
    decreases |s|
  {
    if |s| <= 4 then s else s[..4] + " " + GroupsOfFour(s[4..])
  }

  /** The card-number input handler: drop all white space, then regroup. */
  function FormatCardNumber(input: string): (r: string)
    ensures input == [] ==> r == []
  {
    GroupsOfFour(StripSpaces(input))
  }

  /** The shape of grouped text: a space exactly at every fifth position,
      never at the end, and the characters themselves untouched. */
  lemma GroupsOfFourShape(s: string)
    requires NoSpace(s)
    ensures var r := GroupsOfFour(s);
            && (forall i :: 0 <= i < |r| ==> (r[i] == ' ' <==> i % 5 == 4))
            && (|r| > 0 ==> r[|r| - 1] != ' ')
            && StripSpaces(r) == s
  {
    GroupsSpacing(s);
    GroupsEnd(s);
    GroupsStrip(s);
  }

  lemma {:induction false} GroupsSpacing(s: string)
    requires NoSpace(s)
    ensures forall i :: 0 <= i < |GroupsOfFour(s)| ==> (GroupsOfFour(s)[i] == ' ' <==> i % 5 == 4)
    decreases |s|
  {
    var r := GroupsOfFour(s);
    if |s| <= 4 {
      forall i | 0 <= i < |r|
        ensures r[i] != ' '
      {
        assert !IsSpace(s[i]);
      }
    } else {
      var rest := GroupsOfFour(s[4..]);
      GroupsSpacing(s[4..]);
      assert r == s[..4] + (" " + rest);
      forall i | 0 <= i < |r|
        ensures r[i] == ' ' <==> i % 5 == 4
      {
        if i < 4 {
          assert r[i] == s[i];
          assert !IsSpace(s[i]);
        } else if i > 4 {
          assert r[i] == rest[i - 5];
          assert rest[i - 5] == ' ' <==> (i - 5) % 5 == 4;
          assert (i - 5) % 5 == i % 5;
        } else {
          assert r[i] == ' ';
        }
      }
    }
  }

  lemma {:induction false} GroupsEnd(s: string)
    requires NoSpace(s)
    ensures var r := GroupsOfFour(s);
            |r| > 0 ==> r[|r| - 1] != ' '
    decreases |s|
  {
    var r := GroupsOfFour(s);
    if |s| <= 4 {
      if |s| > 0 {
        assert !IsSpace(s[|s| - 1]);
      }
    } else {
      var rest := GroupsOfFour(s[4..]);
      GroupsEnd(s[4..]);
      assert r == s[..4] + (" " + rest);
      assert r[|r| - 1] == rest[|rest| - 1];
    }
  }

  lemma {:induction false} GroupsStrip(s: string)
    requires NoSpace(s)
    ensures StripSpaces(GroupsOfFour(s)) == s
    decreases |s|
  {
    if |s| <= 4 {
      StripSpacesOfNoSpace(s);
    } else {
      var rest := GroupsOfFour(s[4..]);
      GroupsStrip(s[4..]);
      assert GroupsOfFour(s) == s[..4] + (" " + rest);
      StripSpacesAppend(s[..4], " " + rest);
      StripSpacesAppend(" ", rest);
      assert StripSpaces(" ") == [] by {
        assert IsSpace(' ');
        assert " "[1..] == [];
      }
      StripSpacesOfNoSpace(s[..4]);
      assert s[..4] + s[4..] == s;
    }
  }

  /** Taking the spaces back out of the formatted number gives the typed
      characters without their white space. */
  lemma CardNumberRoundTrip(input: string)
    ensures StripSpaces(FormatCardNumber(input)) == StripSpaces(input)
    ensures var r := FormatCardNumber(input);
            forall i :: 0 <= i < |r| ==> (r[i] == ' ' <==> i % 5 == 4)
  {
    GroupsOfFourShape(StripSpaces(input));
  }

  /** Formatting what the formatter produced changes nothing. */
  lemma CardNumberIdempotent(input: string)
    ensures FormatCardNumber(FormatCardNumber(input)) == FormatCardNumber(input)
  {
    CardNumberRoundTrip(input);
  }

  // -----------------------------------------------------------------------
  // Expiry date

  /** The expiry input handler: keep the digits; from two digits on, show
      the first two, a slash and at most the next two. */
  function FormatExpiry(input: string): (r: string)
    ensures |r| <= 5
    ensures |KeepDigits(input)| < 2 ==> r == KeepDigits(input)
    ensures |KeepDigits(input)| >= 2 ==> |r| >= 3 && r[2] == '/'
  {
    var digits := KeepDigits(input);
    if |digits| >= 2 then
      digits[..2] + "/" + digits[2..if |digits| >= 4 then 4 else |digits|]
    else
      digits
  }

  /** The formatted expiry holds the first four digits typed, in order,
      and nothing else but the slash. */
  lemma ExpiryKeepsDigits(input: string)
    ensures var d := KeepDigits(input);
            KeepDigits(FormatExpiry(input)) == d[..if |d| >= 4 then 4 else |d|]
  {
    var d := KeepDigits(input);
    if |d| >= 2 {
      var n := if |d| >= 4 then 4 else |d|;
      assert AllDigits(d[..2]) && AllDigits(d[2..n]);
      KeepAroundSlash(d[..2], d[2..n]);
      assert d[..2] + d[2..n] == d[..n];
    } else {
      KeepDigitsOfDigits(d);
    }
  }

  /** Digits on both sides of a slash are kept, the slash is dropped. */
  lemma KeepAroundSlash(a: string, b: string)
    requires AllDigits(a) && AllDigits(b)
    ensures KeepDigits(a + "/" + b) == a + b
  {
    assert KeepDigits(a + "/") == a by {
      KeepDigitsAppend(a, "/");
      SlashIsNoDigit();
      KeepDigitsOfDigits(a);
    }
    KeepDigitsOfDigits(b);
    KeepDigitsAppend(a + "/", b);
  }

  lemma SlashIsNoDigit()
    ensures KeepDigits("/") == []
  {
    assert "/"[1..] == [];
  }

  /** Formatting a formatted expiry changes nothing. */
  lemma ExpiryIdempotent(input: string)
    ensures FormatExpiry(FormatExpiry(input)) == FormatExpiry(input)
  {
    ExpiryKeepsDigits(input);
    var d := KeepDigits(input);
    var n := if |d| >= 4 then 4 else |d|;
    var r := FormatExpiry(input);
    assert KeepDigits(r) == d[..n];
    if |d| >= 2 {
      assert d[..n][..2] == d[..2];
      assert d[..n][2..] == d[2..n];
    }
  }
}

=== FILE: seqs.dfy ===
/** Order-preserving selection over sequences: the shape of JavaScript's
    `Array.prototype.filter`, which several parts of the front-end use. */
module Seqs {

  /** `s.filter(keep)`: the elements satisfying `keep`, in their order. */
  function Filter<T(!new)>(s: seq<T>, keep: T -> bool): (r: seq<T>)
    ensures |r| <= |s|
    ensures forall x :: x in r <==> x in s && keep(x)
  {
    if |s| == 0 then []
    else if keep(s[0]) then [s[0]] + Filter(s[1..], keep)
    else Filter(s[1..], keep)
  }

  /** `a` is `b` with some elements deleted: same order, no additions and
      no duplicates beyond those of `b`. */
  predicate IsSubsequence<T(==)>(a: seq<T>, b: seq<T>)
    decreases |b|
  {
    |a| == 0 || (|b| > 0 && if a[0] == b[0] then IsSubsequence(a[1..], b[1..]) else IsSubsequence(a, b[1..]))
  }

  lemma {:induction false} FilterIsSubsequence<T(!new)>(s: seq<T>, keep: T -> bool)
    ensures IsSubsequence(Filter(s, keep), s)
  {
    if |s| > 0 {
      FilterIsSubsequence(s[1..], keep);
      var rest := Filter(s[1..], keep);
      if keep(s[0]) {
        assert Filter(s, keep) == [s[0]] + rest;
        assert ([s[0]] + rest)[1..] == rest;
      } else {
        SubsequenceDropHead(rest, s);
      }
    }
  }

  /** A subsequence of the tail is a subsequence of the whole. */
  lemma {:induction false} SubsequenceDropHead<T>(a: seq<T>, b: seq<T>)
    requires |b| > 0 && IsSubsequence(a, b[1..])
    ensures IsSubsequence(a, b)
    decreases |b|, |a|
  {
    if |a| > 0 && a[0] == b[0] {
      // Matching the head instead: the rest of `a` sits in the tail beyond
      // where `a[0]` was found, hence in `b[1..]`.
      SubsequenceOfTail(a, b[1..]);
    }
  }

  /** If `a` is a subsequence of `b`, so is `a` without its head. */
  lemma {:induction false} SubsequenceOfTail<T>(a: seq<T>, b: seq<T>)
    requires |a| > 0 && IsSubsequence(a, b)
    ensures IsSubsequence(a[1..], b)
    decreases |b|, |a|
  {
    if a[0] == b[0] {
      SubsequenceDropHead(a[1..], b);
    } else {
      SubsequenceOfTail(a, b[1..]);
      SubsequenceDropHead(a[1..], b);
    }
  }

  lemma {:induction false} FilterAppend<T(!new)>(a: seq<T>, b: seq<T>, keep: T -> bool)
    ensures Filter(a + b, keep) == Filter(a, keep) + Filter(b, keep)
  {
    if |a| == 0 {
      assert a + b == b;
    } else {
      assert (a + b)[1..] == a[1..] + b;
      FilterAppend(a[1..], b, keep);
    }
  }

  /** Filtering keeps each value as many times as it occurs and passes. */
  lemma {:induction false} FilterMultiset<T(!new)>(s: seq<T>, keep: T -> bool, x: T)
    ensures multiset(Filter(s, keep))[x] == if keep(x) then multiset(s)[x] else 0
  {
    if |s| > 0 {
      FilterMultiset(s[1..], keep, x);
      assert s == [s[0]] + s[1..];
    }
  }

  /** Nothing passes, nothing is kept. */
  lemma FilterNone<T(!new)>(s: seq<T>, keep: T -> bool)
    requires forall x :: x in s ==> !keep(x)
    ensures Filter(s, keep) == []
  {
  }
}

=== FILE: service_worker.dfy ===
/** The offline cache manager (the service worker): request classification,
    the three retrieval strategies, install and activate, the message
    handler and the background replay of pending bookings.

    Every browser collaborator is a parameter: the cache storage is a
    `Store`, a network attempt is a `NetOutcome` (a response, whatever its
    status, or a thrown error), and batch fetches take a pure oracle from
    URL to outcome. */
module ServiceWorker {
  import opened Optional
  import opened Text
  import opened Seqs
  import opened CacheStore

  // -----------------------------------------------------------------------
  // Constants

  const CacheVersion: string := "freightflow-v1.0.0"
  const StaticCache: string := CacheVersion + "-static"
  const DynamicCache: string := CacheVersion + "-dynamic"
  const ImageCache: string := CacheVersion + "-images"

  /** The prefix shared by every partition this worker has ever created. */
  const OwnPrefix: string := "freightflow-"

  const StaticAssets: seq<string> := [
    "/",
    "/index.html",
    "/booking.html",
    "/dashboard.html",
    "/tracking.html",
    "/about.html",
    "/faq.html",
    "/css/variables.css",
    "/css/style.css",
    "/css/booking.css",
    "/css/checkout.css",
    "/css/dashboard.css",
    "/css/testimonials.css",
    "/css/mobile.css",
    "/js/main.js",
    "/js/search.js",
    "/js/payment.js",
    "/js/tracking.js",
    "/js/animations.js",
    "/data/cities.json",
    FontsStylesheet,
    FeatherIcons,
    "/offline.html"
  ]

  /** The web-font stylesheet of the manifest: its address, then its
      query's three parameters. */
  const FontsStylesheet: string :=
    FontsAddress + FontsInter + FontsGrotesk + FontsDisplay

  const FontsAddress: string := "https://fonts.googleapis.com/css2"
  const FontsInter: string := "?family=Inter:wght@400;500;600;700"
  const FontsGrotesk: string := "&family=Space+Grotesk:wght@500;600;700"
  const FontsDisplay: string := "&display=swap"

  const FeatherIcons: string := "https://unpkg.com/feather-icons"

  const ApiRoutes: seq<string> := ["/api/trucks", "/api/bookings", "/api/tracking"]

  const OfflinePage: string := "/offline.html"

  // -----------------------------------------------------------------------
  // URLs

  /** The worker's origin as `self.location.origin` serialises it: an
      http or https scheme, host and port, so never a fragment. */
  type Origin = o: string | '#' !in o && IsAbsolute(o) witness "http://"

  /** The path the worker script is registered under; a reference with
      no path of its own is taken on it. */
  const WorkerScript: string := "/service-worker.js"

  /** A string that starts with an http or https scheme and `//`. */
  predicate IsAbsolute(u: string) {
    StartsWith(u, "http://") || StartsWith(u, "https://")
  }

  /** A URL whose scheme is http or https, the only ones `cache.addAll`
      accepts. */
  predicate HttpScheme(u: string) {
    StartsWith(u, "http:") || StartsWith(u, "https:")
  }

  predicate IsAsciiLetter(c: char) {
    'a' <= c <= 'z' || 'A' <= c <= 'Z'
  }

  /** The characters a URL scheme continues with after its first letter. */
  predicate IsSchemeChar(c: char) {
    IsAsciiLetter(c) || IsDigit(c) || c == '+' || c == '-' || c == '.'
  }

  /** `u[..k]` is a scheme and `u[k]` the colon that ends it. */
  predicate SchemeColon(u: string, k: int) {
    && 0 < k < |u|
    && u[k] == ':'
    && IsAsciiLetter(u[0])
    && forall j :: 1 <= j < k ==> IsSchemeChar(u[j])
  }

  /** Where the scheme of `u` ends, when `u` starts with one: the URL
      parser then reads `u` as an absolute URL. */
  function SchemeEnd(u: string): (r: Option<nat>)
    ensures r.Some? ==> SchemeColon(u, r.value)
    ensures forall k :: SchemeColon(u, k) ==> r == Some(k)
  {
    if |u| == 0 || !IsAsciiLetter(u[0]) then None else ColonFrom(u, 1)
  }

  /** The first colon at or after `i` reached over scheme characters. */
  function ColonFrom(u: string, i: nat): (r: Option<nat>)
    ensures r.Some? ==> i <= r.value < |u| && u[r.value] == ':' && forall j :: i <= j < r.value ==> IsSchemeChar(u[j])
    ensures forall k :: i <= k < |u| && u[k] == ':' && (forall j :: i <= j < k ==> IsSchemeChar(u[j])) ==> r == Some(k)
    decreases |u| - i
  {
    if i >= |u| then None
    else if u[i] == ':' then Some(i)
    else if IsSchemeChar(u[i]) then ColonFrom(u, i + 1)
    else None
  }

  /** An http(s) URL's scheme ends at its colon and is lower case. */
  lemma AbsoluteScheme(u: string)
    requires IsAbsolute(u)
    ensures SchemeEnd(u).Some? && Lower(u[..SchemeEnd(u).value]) == u[..SchemeEnd(u).value]
  {
    var k := if StartsWith(u, "http://") then 4 else 5;
    if k == 4 {
      assert u[..7][..4] == "http" && u[..7][4] == ':';
    } else {
      assert u[..8][..5] == "https" && u[..8][5] == ':';
    }
    assert u[..k] == u[..k + 1][..k];
    assert SchemeColon(u, k);
  }

  /** A string the parser does not read as absolute is no http(s) URL. */
  lemma NoSchemeNotAbsolute(u: string)
    requires SchemeEnd(u).None?
    ensures !IsAbsolute(u)
  {
    if IsAbsolute(u) {
      AbsoluteScheme(u);
    }
  }

  /** The request URL a string stands for inside the worker, whose script
      is `WorkerScript` on `origin`. A string that starts with a scheme is
      an absolute URL, its scheme lower-cased. The empty string, a
      fragment and a query are taken on the script's own URL, a path on
      the origin, and any other string relative to the root directory.
      `caches.match`, `cache.addAll` and `fetch` resolve a string this way
      before they use it as a key. */
  function Resolve(origin: string, u: string): (r: string)
    ensures IsAbsolute(u) ==> r == u
    ensures SchemeEnd(u).Some? ==> var k := SchemeEnd(u).value; |r| == |u| && r[..k] == Lower(u[..k]) && r[k..] == u[k..]
    ensures u == [] ==> r == origin + WorkerScript
    ensures |u| > 0 && (u[0] == '#' || u[0] == '?') ==> r == origin + WorkerScript + u
    ensures |u| > 0 && u[0] == '/' ==> r == origin + u
    ensures '/' in u ==> '/' in r
  {
    match SchemeEnd(u)
    case Some(k) =>
      SchemeLowered(u, k);
      Lower(u[..k]) + u[k..]
    case None =>
      NoSchemeNotAbsolute(u);
      if |u| == 0 then origin + WorkerScript
      else if u[0] == '#' || u[0] == '?' then origin + WorkerScript + u
      else if u[0] == '/' then origin + u
      else origin + "/" + u
  }

  /** Lower-casing the scheme leaves an http(s) URL as it is and every
      slash where it was. */
  lemma SchemeLowered(u: string, k: nat)
    requires SchemeEnd(u) == Some(k)
    ensures IsAbsolute(u) ==> Lower(u[..k]) + u[k..] == u
    ensures '/' in u ==> '/' in Lower(u[..k]) + u[k..]
  {
    var r := Lower(u[..k]) + u[k..];
    if IsAbsolute(u) {
      AbsoluteScheme(u);
      assert u == u[..k] + u[k..];
    }
    if '/' in u {
      var j :| 0 <= j < |u| && u[j] == '/';
      assert r[j] == u[j];
    }
  }

  lemma AbsoluteHasSlash(u: string)
    requires IsAbsolute(u)
    ensures '/' in u
  {
    if StartsWith(u, "http://") {
      assert u[5] == u[..7][5];
    } else {
      assert u[6] == u[..8][6];
    }
  }

  /** A string without a scheme is taken on the origin: its request URL
      starts with the origin and ends with the string itself. */
  lemma ResolveOnOrigin(origin: string, u: string)
    requires SchemeEnd(u).None?
    ensures StartsWith(Resolve(origin, u), origin)
    ensures |u| <= |Resolve(origin, u)| && Resolve(origin, u)[|Resolve(origin, u)| - |u|..] == u
  {
    var r := Resolve(origin, u);
    if |u| == 0 {
      assert r == origin + WorkerScript;
    } else if u[0] == '#' || u[0] == '?' {
      assert r == origin + WorkerScript + u;
    } else if u[0] == '/' {
      assert r == origin + u;
    } else {
      assert r == origin + "/" + u;
    }
  }

  /** A URL of another scheme keeps it, in lower case, so `addAll`
      refuses its key. */
  lemma OtherSchemeKept(origin: string, u: string, k: nat)
    requires SchemeEnd(u) == Some(k) && Lower(u[..k]) != "http" && Lower(u[..k]) != "https"
    ensures !HttpScheme(Key(Resolve(origin, u)))
  {
    var r := Resolve(origin, u);
    var key := Key(r);
    assert r[k] == ':';
    forall j | 0 <= j < k
      ensures r[j] != '#' && r[j] != ':'
    {
      assert r[j] == Lower(u[..k])[j] == LowerChar(u[j]);
    }
    assert key[..k + 1] == r[..k + 1];
    if StartsWith(key, "http:") {
      SchemeAt(key, r, k, "http");
    } else if StartsWith(key, "https:") {
      SchemeAt(key, r, k, "https");
    }
  }

  /** A key that starts with `name` and a colon, cut from a URL whose
      first colon is at `k` after `k` colon-free characters, has `name`
      as exactly its first `k` characters. */
  lemma SchemeAt(key: string, r: string, k: nat, name: string)
    requires k < |key| && k < |r| && key[..k + 1] == r[..k + 1] && r[k] == ':'
    requires forall j :: 0 <= j < k ==> r[j] != ':'
    requires ':' !in name && StartsWith(key, name + ":")
    ensures r[..k] == name
  {
    var n := |name|;
    assert key[n] == (name + ":")[n] == ':';
    assert r[..k] == key[..n] == (name + ":")[..n] == name;
  }

  function ResolveAll(origin: string, urls: seq<string>): (r: seq<string>)
    ensures |r| == |urls|
    ensures forall i :: 0 <= i < |urls| ==> r[i] == Resolve(origin, urls[i])
  {
    seq(|urls|, i requires 0 <= i < |urls| => Resolve(origin, urls[i]))
  }

  /** The request URLs the manifest stands for on `origin`. */
  function Manifest(origin: string): seq<string> {
    ResolveAll(origin, StaticAssets)
  }

  // -----------------------------------------------------------------------
  // Requests, network outcomes and synthetic responses

  /** A request as the fetch handler sees it: `url` is its absolute URL as
      the URL parser serialises it, `protocol` that URL's scheme with its
      colon (`"https:"`). */
  datatype Request = Request(verb: string, url: string, protocol: string, destination: string, mode: string)

  /** The URL parser serialises an http or https URL as the scheme, its
      colon and two slashes before the host, so the URL starts with the
      protocol and `//`. */
  predicate WellFormed(req: Request) {
    (req.protocol == "http:" || req.protocol == "https:") ==> StartsWith(req.url, req.protocol + "//")
  }

  datatype NetOutcome = Fetched(response: Response) | Threw

  /** `new Response('Network error', {status: 408, headers: {'Content-Type': 'text/plain'}})`. */
  const NetworkErrorResponse: Response := Response(408, "", "Network error", "text/plain")

  /** `new Response('', {status: 404, statusText: 'Image not found'})`; a
      string body gets the default content type. */
  const ImageNotFoundResponse: Response := Response(404, "Image not found", "", "text/plain;charset=UTF-8")

  // -----------------------------------------------------------------------
  // Classification

  datatype Route = Bypass | CacheFirstRoute | NetworkFirstRoute | ImageRoute

  /** Only GET requests over http or https reach a strategy. */
  predicate Intercepted(req: Request) {
    req.verb == "GET" && (req.protocol == "http:" || req.protocol == "https:")
  }

  /** `patterns.some(p => url.includes(p))`. */
  predicate AnyIncluded(url: string, patterns: seq<string>)
    decreases |patterns|
  {
    |patterns| > 0 && (Contains(url, patterns[0]) || AnyIncluded(url, patterns[1..]))
  }

  /** The fetch handler's decision: first match wins, in the order static
      manifest, API route, image destination, default. */
  function Classify(req: Request): (r: Route)
    ensures r == Bypass <==> !Intercepted(req)
    ensures r == CacheFirstRoute <==> Intercepted(req) && AnyIncluded(req.url, StaticAssets)
    ensures r == ImageRoute ==> req.destination == "image" && !AnyIncluded(req.url, ApiRoutes)
  {
    if !Intercepted(req) then Bypass
    else if AnyIncluded(req.url, StaticAssets) then CacheFirstRoute
    else if AnyIncluded(req.url, ApiRoutes) then NetworkFirstRoute
    else if req.destination == "image" then ImageRoute
    else NetworkFirstRoute
  }

  lemma {:induction false} AnyIncludedCarries(url: string, patterns: seq<string>, c: char)
    requires AnyIncluded(url, patterns)
    requires forall i :: 0 <= i < |patterns| ==> c in patterns[i]
    ensures c in url
    decreases |patterns|
  {
    if Contains(url, patterns[0]) {
      ContainsCarries(url, patterns[0], c);
    } else {
      AnyIncludedCarries(url, patterns[1..], c);
    }
  }

  lemma EveryPatternHasSlash()
    ensures forall i :: 0 <= i < |StaticAssets| ==> '/' in StaticAssets[i]
    ensures forall i :: 0 <= i < |ApiRoutes| ==> '/' in ApiRoutes[i]
  {
    ManifestShape();
    ExternalsHaveSlash();
    forall i | 0 <= i < |StaticAssets|
      ensures '/' in StaticAssets[i]
    {
      AssetHasSlash(i);
    }
    assert ApiRoutes[0][0] == ApiRoutes[1][0] == ApiRoutes[2][0] == '/';
  }

  lemma AssetHasSlash(i: int)
    requires 0 <= i < |StaticAssets|
    requires forall k :: 0 <= k < |StaticAssets| && k != 20 && k != 21 ==> |StaticAssets[k]| > 0 && StaticAssets[k][0] == '/'
    requires StaticAssets[20] == FontsStylesheet && StaticAssets[21] == FeatherIcons
    requires '/' in FontsStylesheet && '/' in FeatherIcons
    ensures '/' in StaticAssets[i]
  {
    if i != 20 && i != 21 {
      assert StaticAssets[i][0] == '/';
    }
  }

  lemma ExternalsHaveSlash()
    ensures '/' in FontsStylesheet && '/' in FeatherIcons
  {
    ExternalsAbsolute();
    AbsoluteHasSlash(FontsStylesheet);
    AbsoluteHasSlash(FeatherIcons);
  }

  /** Because the manifest holds `"/"` and the test is substring
      containment, the route of an intercepted request depends only on
      whether its URL contains a slash and on its destination: every URL
      with a slash is served cache-first, and the API-route branch is never
      the one that decides. */
  lemma ClassifyBySlash(req: Request)
    ensures Intercepted(req) && '/' in req.url ==> Classify(req) == CacheFirstRoute
    ensures Intercepted(req) && '/' !in req.url && req.destination == "image" ==> Classify(req) == ImageRoute
    ensures Intercepted(req) && '/' !in req.url && req.destination != "image" ==> Classify(req) == NetworkFirstRoute
  {
    ContainsChar(req.url, '/');
    EveryPatternHasSlash();
    if AnyIncluded(req.url, StaticAssets) {
      AnyIncludedCarries(req.url, StaticAssets, '/');
    }
    if AnyIncluded(req.url, ApiRoutes) {
      AnyIncludedCarries(req.url, ApiRoutes, '/');
    }
  }

  // -----------------------------------------------------------------------
  // Strategies

  /** What a strategy answers (`None`: the page receives no response), the
      store afterwards, and whether the network was tried. */
  datatype Served = Served(response: Option<Response>, store: Store, fetched: bool)

  /** `after` is `before` with `url` mapped to `v` in partition `name` and
      nothing else changed. */
  ghost predicate StoredIn(after: Store, before: Store, name: string, url: string, v: Response) {
    && Entries(after, name) == Entries(before, name)[url := v]
    && forall n :: n != name ==> Entries(after, n) == Entries(before, n)
  }

  /** The store once the worker has handled a fetched response for `url`:
      an ok response makes it open `partition` and put the response there,
      and a 206 (partial content), which `cache.put` rejects, leaves only
      the opened partition behind; any other response is not written. */
  function Keep(s: Store, partition: string, url: string, resp: Response): (r: Store)
    ensures resp.Cacheable() ==> StoredIn(r, s, partition, url, resp)
    ensures resp.Ok() ==> partition in Names(r)
    ensures !resp.Cacheable() ==> forall n :: Entries(r, n) == Entries(s, n)
    ensures !resp.Ok() ==> r == s
  {
    if !resp.Ok() then s
    else if resp.status == 206 then Open(s, partition)
    else Put(s, partition, url, resp)
  }

  /** Shared by both cache-first strategies: a hit is answered from the
      cache; a miss goes to the network, the response being kept in
      `partition`; a thrown fetch is answered with `fallback`. Lookup and
      write both go by the URL's key. */
  function CacheThenNetwork(s: Store, url: string, net: NetOutcome, partition: string, fallback: Option<Response>): Served {
    match Match(s, Key(url))
    case Some(hit) => Served(Some(hit), s, false)
    case None =>
      match net
      case Fetched(resp) => Served(Some(resp), Keep(s, partition, Key(url), resp), true)
      case Threw => Served(fallback, s, true)
  }

  /** `cacheFirst`, on the worker's `origin`. */
  function CacheFirst(s: Store, origin: Origin, url: string, net: NetOutcome): (r: Served)
    ensures Match(s, Key(url)).Some? ==> r.response == Match(s, Key(url)) && r.store == s && !r.fetched
    ensures Match(s, Key(url)).None? ==> r.fetched
    ensures Match(s, Key(url)).None? && net.Fetched? ==> r.response == Some(net.response)
    ensures Match(s, Key(url)).None? && net.Fetched? && net.response.Cacheable() ==> StoredIn(r.store, s, StaticCache, Key(url), net.response)
    ensures Match(s, Key(url)).None? && net.Fetched? && net.response.Ok() ==> StaticCache in Names(r.store)
    ensures Match(s, Key(url)).None? && net.Fetched? && !net.response.Cacheable() ==> forall n :: Entries(r.store, n) == Entries(s, n)
    ensures Match(s, Key(url)).None? && net.Fetched? && !net.response.Ok() ==> r.store == s
    ensures Match(s, Key(url)).None? && net.Threw? ==> r.response == Match(s, Key(Resolve(origin, OfflinePage))) && r.store == s
  {
    CacheThenNetwork(s, url, net, StaticCache, Match(s, Key(Resolve(origin, OfflinePage))))
  }

  /** `cacheFirstImages`: like `cacheFirst` but written to the image
      partition, and a total failure yields a 404 rather than the offline
      page. */
  function CacheFirstImages(s: Store, url: string, net: NetOutcome): (r: Served)
    ensures Match(s, Key(url)).Some? ==> r.response == Match(s, Key(url)) && r.store == s && !r.fetched
    ensures Match(s, Key(url)).None? ==> r.fetched
    ensures Match(s, Key(url)).None? && net.Fetched? ==> r.response == Some(net.response)
    ensures Match(s, Key(url)).None? && net.Fetched? && net.response.Cacheable() ==> StoredIn(r.store, s, ImageCache, Key(url), net.response)
    ensures Match(s, Key(url)).None? && net.Fetched? && net.response.Ok() ==> ImageCache in Names(r.store)
    ensures Match(s, Key(url)).None? && net.Fetched? && !net.response.Cacheable() ==> forall n :: Entries(r.store, n) == Entries(s, n)
    ensures Match(s, Key(url)).None? && net.Fetched? && !net.response.Ok() ==> r.store == s
    ensures Match(s, Key(url)).None? && net.Threw? ==> r.response == Some(ImageNotFoundResponse) && r.store == s
  {
    CacheThenNetwork(s, url, net, ImageCache, Some(ImageNotFoundResponse))
  }

  /** `networkFirst`, on the worker's `origin`. */
  function NetworkFirst(s: Store, origin: Origin, url: string, mode: string, net: NetOutcome): (r: Served)
    ensures r.fetched
    ensures net.Fetched? ==> r.response == Some(net.response)
    ensures net.Fetched? && net.response.Cacheable() ==> StoredIn(r.store, s, DynamicCache, Key(url), net.response)
    ensures net.Fetched? && net.response.Ok() ==> DynamicCache in Names(r.store)
    ensures net.Fetched? && !net.response.Cacheable() ==> forall n :: Entries(r.store, n) == Entries(s, n)
    ensures net.Fetched? && !net.response.Ok() ==> r.store == s
    ensures net.Threw? ==> r.store == s
    ensures net.Threw? && Match(s, Key(url)).Some? ==> r.response == Match(s, Key(url))
    ensures net.Threw? && Match(s, Key(url)).None? && mode == "navigate" ==> r.response == Match(s, Key(Resolve(origin, OfflinePage)))
    ensures net.Threw? && Match(s, Key(url)).None? && mode != "navigate" ==> r.response == Some(NetworkErrorResponse)
  {
    match net
    case Fetched(resp) => Served(Some(resp), Keep(s, DynamicCache, Key(url), resp), true)
    case Threw =>
      match Match(s, Key(url))
      case Some(hit) => Served(Some(hit), s, true)
      case None =>
        if mode == "navigate" then Served(Match(s, Key(Resolve(origin, OfflinePage))), s, true)
        else Served(Some(NetworkErrorResponse), s, true)
  }

  /** The fetch handler of the worker on `origin`: `None` when the request
      is left to the browser, otherwise what the chosen strategy serves. */
  function HandleFetch(req: Request, origin: Origin, s: Store, net: NetOutcome): (r: Option<Served>)
    ensures r.None? <==> !Intercepted(req)
    ensures Intercepted(req) && '/' in req.url ==> r == Some(CacheFirst(s, origin, req.url, net))
    ensures Intercepted(req) && '/' !in req.url && req.destination == "image" ==> r == Some(CacheFirstImages(s, req.url, net))
    ensures Intercepted(req) && '/' !in req.url && req.destination != "image" ==> r == Some(NetworkFirst(s, origin, req.url, req.mode, net))
  {
    ClassifyBySlash(req);
    match Classify(req)
    case Bypass => None
    case CacheFirstRoute => Some(CacheFirst(s, origin, req.url, net))
    case NetworkFirstRoute => Some(NetworkFirst(s, origin, req.url, req.mode, net))
    case ImageRoute => Some(CacheFirstImages(s, req.url, net))
  }

  /** Every request the handler intercepts is served cache-first: its URL
      starts with `http://` or `https://`, so it holds a slash, and so it
      contains the manifest entry `"/"`. The API-route and image branches
      of the handler are never taken. */
  lemma InterceptedIsCacheFirst(req: Request, origin: Origin, s: Store, net: NetOutcome)
    requires WellFormed(req)
    ensures Intercepted(req) ==> Classify(req) == CacheFirstRoute
    ensures Intercepted(req) ==> HandleFetch(req, origin, s, net) == Some(CacheFirst(s, origin, req.url, net))
  {
    if Intercepted(req) {
      var k := |req.protocol|;
      assert req.url[k] == (req.protocol + "//")[k] == '/';
      ClassifyBySlash(req);
    }
  }

  /** A cacheable response fetched on a cache-first miss is what every
      later cache-first request for the URL gets, without the network. */
  lemma CacheFirstRevisit(s: Store, origin: Origin, url: string, resp: Response, later: NetOutcome)
    requires Match(s, Key(url)).None? && resp.Cacheable()
    ensures var first := CacheFirst(s, origin, url, Fetched(resp));
            CacheFirst(first.store, origin, url, later) == Served(Some(resp), first.store, false)
  {
    PutThenMatch(s, StaticCache, Key(url), resp);
  }

  /** A partial (206) response fetched on a cache-first miss is not kept:
      the next request for the URL goes to the network again. */
  lemma PartialResponseRefetched(s: Store, origin: Origin, url: string, resp: Response, later: NetOutcome)
    requires Match(s, Key(url)).None? && resp.status == 206
    ensures var first := CacheFirst(s, origin, url, Fetched(resp));
            CacheFirst(first.store, origin, url, later).fetched
  {
    var o := Open(s, StaticCache);
    if StaticCache !in Names(s) {
      assert o == s + [Partition(StaticCache, map[])];
      MatchSnocEmpty(s, StaticCache, Key(url));
    }
  }

  /** A cacheable response fetched network-first is what the same URL gets
      once the network fails, when nothing else was cached for it. */
  lemma NetworkFirstOfflineRevisit(s: Store, origin: Origin, url: string, resp: Response, mode: string, mode': string)
    requires Match(s, Key(url)).None? && resp.Cacheable()
    ensures var first := NetworkFirst(s, origin, url, mode, Fetched(resp));
            NetworkFirst(first.store, origin, url, mode', Threw).response == Some(resp)
  {
    PutThenMatch(s, DynamicCache, Key(url), resp);
  }

  /** With the network down and nothing cached for the URL, a navigation
      served network-first gets the offline page cached for the origin. */
  lemma OfflineNavigationGetsOfflinePage(s: Store, origin: Origin, url: string, page: Response)
    requires Match(s, Key(url)).None?
    requires Match(s, Key(Resolve(origin, OfflinePage))) == Some(page)
    ensures NetworkFirst(s, origin, url, "navigate", Threw).response == Some(page)
  {
  }

  /** A fragment never changes what a strategy does: a request for a URL
      with one is served, and stored, exactly as the URL without it. */
  lemma FragmentIgnored(s: Store, origin: Origin, url: string, fragment: string, mode: string, net: NetOutcome)
    requires '#' !in url
    ensures CacheFirst(s, origin, url + "#" + fragment, net) == CacheFirst(s, origin, url, net)
    ensures CacheFirstImages(s, url + "#" + fragment, net) == CacheFirstImages(s, url, net)
    ensures NetworkFirst(s, origin, url + "#" + fragment, mode, net) == NetworkFirst(s, origin, url, mode, net)
  {
    KeyIgnoresFragment(url, fragment);
    KeyOfPlain(url);
  }

  // -----------------------------------------------------------------------
  // Install

  predicate Distinct(urls: seq<string>) {
    forall i, j :: 0 <= i < j < |urls| ==> urls[i] != urls[j]
  }

  /** Every fetch of the batch returns a response the cache stores. */
  predicate AllHttp(urls: seq<string>) {
    forall i :: 0 <= i < |urls| ==> HttpScheme(urls[i])
  }

  predicate AllCacheable(urls: seq<string>, net: string -> NetOutcome) {
    forall i :: 0 <= i < |urls| ==> net(urls[i]).Fetched? && net(urls[i]).response.Cacheable()
  }

  function Responses(urls: seq<string>, net: string -> NetOutcome): (m: map<string, Response>)
    requires AllCacheable(urls, net)
    ensures m.Keys == set u | u in urls
    ensures forall u :: u in m ==> m[u] == net(u).response
  {
    map u | u in urls :: net(u).response
  }

  /** `cache.addAll` on partition `name`, for the request URLs `urls` (the
      strings given, resolved): all-or-nothing. Each URL is fetched and
      stored by its key, the fragment never reaching the network. It fails
      when a URL's scheme is not http or https, a fetch throws, a response
      is not ok or is a 206, or two URLs share a key. */
  function AddAll(s: Store, name: string, urls: seq<string>, net: string -> NetOutcome): (r: Option<Store>)
    ensures r.Some? <==> AllCacheable(KeyAll(urls), net) && Distinct(KeyAll(urls)) && AllHttp(KeyAll(urls))
    ensures r.Some? ==> forall i :: 0 <= i < |urls| ==>
              Key(urls[i]) in Entries(r.value, name) && Entries(r.value, name)[Key(urls[i])] == net(Key(urls[i])).response
    ensures r.Some? ==> forall k :: k !in KeyAll(urls) ==>
              && (k in Entries(r.value, name) <==> k in Entries(s, name))
              && (k in Entries(s, name) ==> Entries(r.value, name)[k] == Entries(s, name)[k])
    ensures r.Some? ==> forall n :: n != name ==> Entries(r.value, n) == Entries(s, n)
  {
    var keys := KeyAll(urls);
    if AllCacheable(keys, net) && Distinct(keys) && AllHttp(keys) then
      var m := Responses(keys, net);
      var t := Write(s, name, m);
      assert forall i :: 0 <= i < |urls| ==> keys[i] in m;
      Some(t)
    else
      None
  }

  /** The manifest's own files are paths on the worker's origin, none
      ending the way either of the other two entries, absolute URLs of
      other sites, ends. */
  lemma ManifestShape()
    ensures forall i :: 0 <= i < |StaticAssets| && i != 20 && i != 21 ==>
              |StaticAssets[i]| > 0 && StaticAssets[i][0] == '/' && EndsUnlikeExternals(StaticAssets[i])
    ensures StaticAssets[20] == FontsStylesheet && StaticAssets[21] == FeatherIcons
  {
  }

  /** No path of the manifest has a fragment. */
  lemma PathsPlain()
    ensures forall i :: 0 <= i < |StaticAssets| && i != 20 && i != 21 ==> '#' !in StaticAssets[i]
  {
  }

  /** `path` does not end in `p`, nor in `s` after an `n`: it ends
      unlike `...display=swap` and `...feather-icons`. */
  predicate EndsUnlikeExternals(path: string) {
    && |path| > 0
    && path[|path| - 1] != 'p'
    && (path[|path| - 1] == 's' ==> |path| > 1 && path[|path| - 2] != 'n')
  }

  /** `path` cannot be the tail of `url` when the two differ `k` places
      from their ends. */
  lemma TailsDiffer(origin: string, path: string, url: string, k: int)
    requires 1 <= k <= |path| && k <= |url| && path[|path| - k] != url[|url| - k]
    ensures origin + path != url
  {
  }

  /** Two different paths stay different on the same origin. */
  lemma PathsDiffer(origin: string, a: string, b: string)
    requires a != b
    ensures origin + a != origin + b
  {
    assert (origin + a)[|origin|..] == a && (origin + b)[|origin|..] == b;
  }

  lemma AssetsDistinct()
    ensures Distinct(StaticAssets)
  {
  }

  /** No request URL is listed twice in the manifest, whatever the origin,
      so the install batch fails only on the network. */
  lemma ManifestDistinct(origin: string)
    ensures Distinct(Manifest(origin))
  {
    var m := Manifest(origin);
    ManifestShape();
    AssetsDistinct();
    forall i, j | 0 <= i < j < |m|
      ensures m[i] != m[j]
    {
      ResolvedDiffer(origin, i, j);
    }
  }

  lemma ResolvedDiffer(origin: string, i: int, j: int)
    requires 0 <= i < j < |StaticAssets|
    requires Distinct(StaticAssets)
    requires forall k :: 0 <= k < |StaticAssets| && k != 20 && k != 21 ==>
               |StaticAssets[k]| > 0 && StaticAssets[k][0] == '/' && EndsUnlikeExternals(StaticAssets[k])
    requires StaticAssets[20] == FontsStylesheet && StaticAssets[21] == FeatherIcons
    ensures Resolve(origin, StaticAssets[i]) != Resolve(origin, StaticAssets[j])
  {
    var a, b := StaticAssets[i], StaticAssets[j];
    ExternalsAbsolute();
    if i != 20 && i != 21 && j != 20 && j != 21 {
      PathsDiffer(origin, a, b);
    } else if i != 20 && i != 21 {
      PathNotTail(origin, a, b);
    } else if j != 20 && j != 21 {
      PathNotTail(origin, b, a);
    }
  }

  /** On an origin, which carries no fragment, every manifest URL is its
      own cache key. */
  /** On an http(s) origin every manifest URL is an http(s) URL. */
  lemma ManifestHttp(origin: Origin)
    ensures AllHttp(Manifest(origin))
  {
    var m := Manifest(origin);
    ManifestShape();
    ExternalsAbsolute();
    AbsoluteHttp(FontsStylesheet);
    AbsoluteHttp(FeatherIcons);
    AbsoluteHttp(origin);
    forall i | 0 <= i < |m|
      ensures HttpScheme(m[i])
    {
      if i != 20 && i != 21 {
        PrefixHttp(origin, StaticAssets[i]);
      }
    }
  }

  lemma AbsoluteHttp(u: string)
    requires IsAbsolute(u)
    ensures HttpScheme(u)
  {
    if StartsWith(u, "http://") {
      assert u[..5] == u[..7][..5];
    } else {
      assert u[..6] == u[..8][..6];
    }
  }

  lemma PrefixHttp(origin: string, path: string)
    requires HttpScheme(origin)
    ensures HttpScheme(origin + path)
  {
    var n := if StartsWith(origin, "http:") then 5 else 6;
    assert (origin + path)[..n] == origin[..n];
  }

  lemma ManifestKeys(origin: Origin)
    ensures KeyAll(Manifest(origin)) == Manifest(origin)
  {
    var m := Manifest(origin);
    ManifestShape();
    PathsPlain();
    ExternalsPlain();
    forall i | 0 <= i < |m|
      ensures Key(m[i]) == m[i]
    {
      EntryPlain(origin, i);
      KeyOfPlain(m[i]);
    }
  }

  lemma EntryPlain(origin: Origin, i: int)
    requires 0 <= i < |StaticAssets|
    requires forall k :: 0 <= k < |StaticAssets| && k != 20 && k != 21 ==> |StaticAssets[k]| > 0 && StaticAssets[k][0] == '/'
    requires forall k :: 0 <= k < |StaticAssets| && k != 20 && k != 21 ==> '#' !in StaticAssets[k]
    requires StaticAssets[20] == FontsStylesheet && StaticAssets[21] == FeatherIcons
    requires '#' !in FontsStylesheet && '#' !in FeatherIcons
    ensures '#' !in Manifest(origin)[i]
  {
    if i != 20 && i != 21 {
      assert Manifest(origin)[i] == origin + StaticAssets[i];
    } else {
      ExternalsAbsolute();
    }
  }

  /** Neither external URL of the manifest has a fragment. */
  lemma ExternalsPlain()
    ensures '#' !in FontsStylesheet && '#' !in FeatherIcons
  {
    PiecesPlain();
    assert '#' !in FontsAddress && '#' !in FontsInter && '#' !in FontsGrotesk && '#' !in FontsDisplay;
  }

  /** No character of `u` is `#`, stated by position. */
  predicate HashFree(u: string) {
    forall k :: 0 <= k < |u| ==> u[k] != '#'
  }

  lemma PiecesPlain()
    ensures HashFree(FontsAddress) && HashFree(FontsInter) && HashFree(FontsGrotesk) && HashFree(FontsDisplay)
    ensures HashFree(FeatherIcons)
  {
  }

  lemma ExternalsAbsolute()
    ensures IsAbsolute(FontsStylesheet) && IsAbsolute(FeatherIcons)
    ensures FontsStylesheet[|FontsStylesheet| - 1] == 'p'
    ensures FeatherIcons[|FeatherIcons| - 1] == 's' && FeatherIcons[|FeatherIcons| - 2] == 'n'
  {
    assert FontsStylesheet[..8] == "https://";
  }

  /** A path of the manifest resolved on any origin is neither of its two
      external URLs. */
  lemma PathNotTail(origin: string, path: string, url: string)
    requires EndsUnlikeExternals(path)
    requires url == FontsStylesheet || url == FeatherIcons
    ensures origin + path != url
  {
    ExternalsAbsolute();
    if path[|path| - 1] != url[|url| - 1] {
      TailsDiffer(origin, path, url, 1);
    } else {
      TailsDiffer(origin, path, url, 2);
    }
  }

  datatype Installed = Installed(store: Store, skippedWaiting: bool, errorLogged: bool)

  /** The install handler of the worker on `origin`: open the static
      partition, add the whole manifest, and call `skipWaiting` only when
      that succeeded; a failure is logged and swallowed, so the install
      event itself completes. */
  function Install(s: Store, origin: Origin, net: string -> NetOutcome): (r: Installed)
    ensures StaticCache in Names(r.store)
    ensures r.skippedWaiting <==> AllCacheable(Manifest(origin), net)
    ensures r.errorLogged <==> !r.skippedWaiting
    ensures r.skippedWaiting ==> forall i :: 0 <= i < |StaticAssets| ==>
              var u := Resolve(origin, StaticAssets[i]);
              u in Entries(r.store, StaticCache) && Entries(r.store, StaticCache)[u] == net(u).response
    ensures !r.skippedWaiting ==> forall n :: Entries(r.store, n) == Entries(s, n)
    ensures forall n :: n != StaticCache ==> Entries(r.store, n) == Entries(s, n)
  {
    ManifestDistinct(origin);
    ManifestKeys(origin);
    ManifestHttp(origin);
    var o := Open(s, StaticCache);
    match AddAll(o, StaticCache, Manifest(origin), net)
    case Some(t) =>
      assert Names(t) == Names(Open(o, StaticCache));
      Installed(t, true, false)
    case None => Installed(o, false, true)
  }

  /** Once the manifest is installed, a request for any manifest entry's
      URL, with or without a fragment, is answered from the cache,
      identically whether or not the network is reachable. */
  lemma InstalledAssetsServedOffline(s: Store, origin: Origin, net: string -> NetOutcome, now: NetOutcome, now': NetOutcome)
    requires AllCacheable(Manifest(origin), net)
    ensures forall req :: Intercepted(req) && Key(req.url) in Manifest(origin) ==>
              var t := Install(s, origin, net).store;
              && HandleFetch(req, origin, t, now).Some?
              && !HandleFetch(req, origin, t, now).value.fetched
              && HandleFetch(req, origin, t, now) == HandleFetch(req, origin, t, now')
  {
    var t := Install(s, origin, net).store;
    forall req | Intercepted(req) && Key(req.url) in Manifest(origin)
      ensures HandleFetch(req, origin, t, now).Some? && !HandleFetch(req, origin, t, now).value.fetched
      ensures HandleFetch(req, origin, t, now) == HandleFetch(req, origin, t, now')
    {
      InstalledHolds(s, origin, net, Key(req.url));
      CachedAssetHit(t, origin, req, now);
      CachedAssetHit(t, origin, req, now');
    }
  }

  /** A successful install leaves every manifest URL in the static
      partition. */
  lemma InstalledHolds(s: Store, origin: Origin, net: string -> NetOutcome, url: string)
    requires AllCacheable(Manifest(origin), net) && url in Manifest(origin)
    ensures url in Entries(Install(s, origin, net).store, StaticCache)
  {
    var i :| 0 <= i < |StaticAssets| && Manifest(origin)[i] == url;
  }

  /** An intercepted request whose key is a manifest URL stored in the
      static partition is answered from the cache. */
  lemma CachedAssetHit(t: Store, origin: Origin, req: Request, now: NetOutcome)
    requires Intercepted(req) && Key(req.url) in Manifest(origin)
    requires Key(req.url) in Entries(t, StaticCache)
    ensures Match(t, Key(req.url)).Some?
    ensures HandleFetch(req, origin, t, now) == Some(Served(Match(t, Key(req.url)), t, false))
  {
    var key := Key(req.url);
    EveryPatternHasSlash();
    var i :| 0 <= i < |StaticAssets| && Manifest(origin)[i] == key;
    assert '/' in StaticAssets[i];
    var k :| 0 <= k < |key| && key[k] == '/';
    assert req.url[k] == req.url[..|key|][k] == '/';
    EntriesHeld(t, StaticCache, key);
  }

  /** A key held by some partition's entries is found by `caches.match`. */
  lemma {:induction false} EntriesHeld(s: Store, name: string, key: string)
    requires key in Entries(s, name)
    ensures Match(s, key).Some?
  {
    if s[0].name != name && key !in s[0].entries {
      EntriesHeld(s[1..], name, key);
    }
  }

  // -----------------------------------------------------------------------
  // Activate

  /** A partition of an earlier generation of this worker. */
  predicate IsStale(name: string) {
    StartsWith(name, OwnPrefix) && name != StaticCache && name != DynamicCache && name != ImageCache
  }

  datatype Activated = Activated(store: Store, deleted: seq<string>, claimed: bool)

  /** The activate handler: delete every stale partition, then claim the
      open clients. */
  function Activate(s: Store): (r: Activated)
    ensures forall n :: n in r.deleted <==> n in Names(s) && IsStale(n)
    ensures forall n :: n in Names(r.store) <==> n in Names(s) && !IsStale(n)
    ensures forall n :: !IsStale(n) ==> Entries(r.store, n) == Entries(s, n)
    ensures IsSubsequence(r.store, s)
    ensures Valid(s) ==> Valid(r.store)
    ensures r.claimed
  {
    PruneFacts(s);
    Activated(Drop(s, IsStale), Filter(Names(s), IsStale), true)
  }

  lemma PruneFacts(s: Store)
    ensures forall n :: n in Names(Drop(s, IsStale)) <==> n in Names(s) && !IsStale(n)
    ensures forall n :: !IsStale(n) ==> Entries(Drop(s, IsStale), n) == Entries(s, n)
    ensures IsSubsequence(Drop(s, IsStale), s)
    ensures Valid(s) ==> Valid(Drop(s, IsStale))
  {
    forall n
      ensures n in Names(Drop(s, IsStale)) <==> n in Names(s) && !IsStale(n)
    {
      DropNames(s, IsStale, n);
    }
    forall n | !IsStale(n)
      ensures Entries(Drop(s, IsStale), n) == Entries(s, n)
    {
      DropEntries(s, IsStale, n);
    }
    DropIsSubsequence(s, IsStale);
    DropValid(s, IsStale);
  }

  /** A partition left by an earlier release (here `v0.9.0`) is deleted on
      activation and no longer found by name. */
  lemma ActivatePrunesEarlierRelease(s: Store)
    requires "freightflow-v0.9.0-static" in Names(s)
    ensures "freightflow-v0.9.0-static" in Activate(s).deleted
    ensures "freightflow-v0.9.0-static" !in Names(Activate(s).store)
    ensures Entries(Activate(s).store, "freightflow-v0.9.0-static") == map[]
  {
    var earlier := "freightflow-v0.9.0-static";
    assert earlier[..|OwnPrefix|] == OwnPrefix;
    assert earlier[13] != StaticCache[13];
    assert IsStale(earlier);
    EntriesAbsent(Activate(s).store, earlier);
  }

  /** Activating twice deletes nothing the second time. */
  lemma ActivateIdempotent(s: Store)
    ensures Activate(Activate(s).store).deleted == []
  {
    var t := Activate(s).store;
    assert forall n :: n in Names(t) ==> !IsStale(n);
    FilterNone(Names(t), IsStale);
  }

  /** The three current partitions and every partition outside this
      worker's naming scheme survive activation unchanged. */
  lemma ActivateKeepsCurrentAndForeign(s: Store, n: string)
    requires n in [StaticCache, DynamicCache, ImageCache] || !StartsWith(n, OwnPrefix)
    ensures n in Names(Activate(s).store) <==> n in Names(s)
    ensures Entries(Activate(s).store, n) == Entries(s, n)
  {
  }

  // -----------------------------------------------------------------------
  // Messages

  /** The `data` of a message event: its `type` and `urls` members. */
  datatype MessageData = MessageData(kind: Option<string>, urls: Option<seq<string>>)

  datatype MessageEffect = MessageEffect(skippedWaiting: bool, store: Store)

  /** The message handler: `SKIP_WAITING` activates the waiting worker,
      `CACHE_URLS` adds the listed URLs (none when absent), resolved on
      the worker's `origin` and stored by their keys, to the dynamic
      partition with `addAll`. */
  function HandleMessage(data: Option<MessageData>, origin: Origin, s: Store, net: string -> NetOutcome): (r: MessageEffect)
    ensures r.skippedWaiting <==> data.Some? && data.value.kind == Some("SKIP_WAITING")
    ensures !(data.Some? && data.value.kind == Some("CACHE_URLS")) ==> r.store == s
    ensures data.Some? && data.value.kind == Some("CACHE_URLS") ==>
              var keys := KeyAll(ResolveAll(origin, data.value.urls.GetOr([])));
              && DynamicCache in Names(r.store)
              && (forall n :: n != DynamicCache ==> Entries(r.store, n) == Entries(s, n))
              && (AllCacheable(keys, net) && Distinct(keys) && AllHttp(keys) ==> forall i :: 0 <= i < |keys| ==>
                    keys[i] in Entries(r.store, DynamicCache) && Entries(r.store, DynamicCache)[keys[i]] == net(keys[i]).response)
              && (!(AllCacheable(keys, net) && Distinct(keys) && AllHttp(keys)) ==> Entries(r.store, DynamicCache) == Entries(s, DynamicCache))
  {
    var skip := data.Some? && data.value.kind == Some("SKIP_WAITING");
    if data.Some? && data.value.kind == Some("CACHE_URLS") then
      var o := Open(s, DynamicCache);
      match AddAll(o, DynamicCache, ResolveAll(origin, data.value.urls.GetOr([])), net)
      case Some(t) =>
        assert Names(t) == Names(Open(o, DynamicCache));
        MessageEffect(skip, t)
      case None => MessageEffect(skip, o)
    else
      MessageEffect(skip, s)
  }

  /** A `CACHE_URLS` list holding a URL of any scheme other than http or
      https, in whatever case, stores nothing: `addAll` rejects the whole
      batch. */
  lemma CacheUrlsOtherSchemeRefused(urls: seq<string>, origin: Origin, s: Store, net: string -> NetOutcome, i: int, k: nat)
    requires 0 <= i < |urls| && SchemeEnd(urls[i]) == Some(k)
    requires Lower(urls[i][..k]) != "http" && Lower(urls[i][..k]) != "https"
    ensures var r := HandleMessage(Some(MessageData(Some("CACHE_URLS"), Some(urls))), origin, s, net);
            Entries(r.store, DynamicCache) == Entries(s, DynamicCache)
  {
    OtherSchemeKept(origin, urls[i], k);
    assert KeyAll(ResolveAll(origin, urls))[i] == Key(Resolve(origin, urls[i]));
  }

  /** An empty string and a bare fragment both stand for the worker
      script's own URL, and so share its key. */
  lemma NoPathMeansWorkerScript(origin: Origin, fragment: string)
    ensures Key(Resolve(origin, "")) == origin + WorkerScript
    ensures Key(Resolve(origin, "#" + fragment)) == origin + WorkerScript
  {
    assert '#' !in WorkerScript;
    assert '#' !in origin + WorkerScript;
    KeyOfPlain(origin + WorkerScript);
    assert Resolve(origin, "#" + fragment) == origin + WorkerScript + "#" + fragment;
    KeyIgnoresFragment(origin + WorkerScript, fragment);
  }

  // -----------------------------------------------------------------------
  // Background sync

  datatype Booking = Booking(id: string, payload: string)

  datatype ClientMessage = ClientMessage(kind: string, message: string)

  const SyncComplete: ClientMessage := ClientMessage("SYNC_COMPLETE", "Bookings synced successfully")

  /** The POST for `b` was answered with an ok response. */
  predicate Acknowledged(post: Booking -> NetOutcome, b: Booking) {
    post(b).Fetched? && post(b).response.Ok()
  }

  /** The ids acknowledged among `posted`. */
  function AckedIds(posted: seq<Booking>, post: Booking -> NetOutcome): (ids: set<string>)
    ensures forall id :: id in ids <==> exists i :: AckedAt(posted, post, i, id)
  {
    if |posted| == 0 then {}
    else
      var last := posted[|posted| - 1];
      var front := posted[..|posted| - 1];
      var ids := AckedIds(front, post) + if Acknowledged(post, last) then {last.id} else {};
      forall id | id in ids
        ensures exists i :: AckedAt(posted, post, i, id)
      {
        if id in AckedIds(front, post) {
          var i :| AckedAt(front, post, i, id);
          assert AckedAt(posted, post, i, id);
        } else {
          assert AckedAt(posted, post, |posted| - 1, id);
        }
      }
      forall id, i | AckedAt(posted, post, i, id)
        ensures id in ids
      {
        if i < |posted| - 1 {
          assert AckedAt(front, post, i, id);
        }
      }
      ids
  }

  /** `posted[i]` was acknowledged and carries `id`. */
  predicate AckedAt(posted: seq<Booking>, post: Booking -> NetOutcome, i: int, id: string) {
    0 <= i < |posted| && Acknowledged(post, posted[i]) && posted[i].id == id
  }

  /** The bookings POSTed, the queue left in storage, and the broadcast to
      the open clients if one was sent. */
  datatype SyncResult = SyncResult(posted: seq<Booking>, queue: seq<Booking>, broadcast: Option<ClientMessage>)

  /** `syncBookings`: POST every pending booking in queue order; an ok
      answer removes the booking's id from the queue, any other answer
      leaves it queued; a thrown fetch abandons the rest of the pass and
      the broadcast; after a full pass every client gets `SYNC_COMPLETE`. */
  method SyncBookings(pending: seq<Booking>, post: Booking -> NetOutcome) returns (r: SyncResult)
    ensures |pending| == 0 ==> r == SyncResult([], [], None)
    ensures |r.posted| <= |pending| && r.posted == pending[..|r.posted|]
    ensures r.broadcast.Some? <==> |pending| > 0 && FetchedUpTo(pending, post, |pending|)
    ensures r.broadcast.Some? ==> r.posted == pending && r.broadcast.value == SyncComplete
    ensures r.broadcast.None? && |pending| > 0 ==>
              |r.posted| > 0 && FetchedUpTo(pending, post, |r.posted| - 1) && post(pending[|r.posted| - 1]).Threw?
    ensures r.queue == Unacked(pending, AckedIds(r.posted, post))
  {
    if |pending| == 0 {
      return SyncResult([], [], None);
    }
    var queue := pending;
    UnackedNone(pending);
    assert AckedIds(pending[..0], post) == {};
    var k := 0;
    var aborted := false;
    while k < |pending| && !aborted
      invariant 0 <= k <= |pending|
      invariant !aborted ==> FetchedUpTo(pending, post, k)
      invariant aborted ==> k > 0 && FetchedUpTo(pending, post, k - 1) && post(pending[k - 1]).Threw?
      invariant queue == Unacked(pending, AckedIds(pending[..k], post))
      decreases |pending| - k
    {
      var b := pending[k];
      QueueStep(pending, k, post);
      if post(b).Threw? {
        aborted := true;
      } else if post(b).response.Ok() {
        queue := Unacked(queue, {b.id});
      }
      k := k + 1;
    }
    if aborted {
      assert !post(pending[k - 1]).Fetched?;
      r := SyncResult(pending[..k], queue, None);
    } else {
      assert pending[..k] == pending;
      r := SyncResult(pending, queue, Some(SyncComplete));
    }
  }

  /** Every one of the first `n` POSTs got an answer (none threw). */
  predicate FetchedUpTo(pending: seq<Booking>, post: Booking -> NetOutcome, n: int) {
    forall i :: 0 <= i < n && i < |pending| ==> post(pending[i]).Fetched?
  }

  /** One more booking posted: the queue loses that booking's id exactly
      when the answer was ok. */
  lemma QueueStep(pending: seq<Booking>, k: int, post: Booking -> NetOutcome)
    requires 0 <= k < |pending|
    ensures Unacked(pending, AckedIds(pending[..k + 1], post))
         == if Acknowledged(post, pending[k])
            then Unacked(Unacked(pending, AckedIds(pending[..k], post)), {pending[k].id})
            else Unacked(pending, AckedIds(pending[..k], post))
  {
    var done := pending[..k + 1];
    assert done[..k] == pending[..k] && done[k] == pending[k];
    var before := AckedIds(pending[..k], post);
    if Acknowledged(post, pending[k]) {
      assert AckedIds(done, post) == before + {pending[k].id};
      UnackedTwice(pending, before, {pending[k].id});
    } else {
      assert AckedIds(done, post) == before;
    }
  }

  /** The bookings of `queue` whose id is not in `ids`, in queue order:
      the queue once `removePendingBooking` has run for each of `ids`. */
  function Unacked(queue: seq<Booking>, ids: set<string>): (r: seq<Booking>)
    ensures forall b :: b in r <==> b in queue && b.id !in ids
    ensures IsSubsequence(r, queue)
  {
    if |queue| == 0 then []
    else
      var rest := Unacked(queue[1..], ids);
      if queue[0].id in ids then
        SubsequenceDropHead(rest, queue);
        rest
      else
        assert ([queue[0]] + rest)[1..] == rest;
        [queue[0]] + rest
  }

  lemma {:induction false} UnackedNone(queue: seq<Booking>)
    ensures Unacked(queue, {}) == queue
  {
    if |queue| > 0 {
      UnackedNone(queue[1..]);
    }
  }

  lemma {:induction false} UnackedTwice(s: seq<Booking>, ids: set<string>, more: set<string>)
    ensures Unacked(Unacked(s, ids), more) == Unacked(s, ids + more)
  {
    if |s| > 0 {
      UnackedTwice(s[1..], ids, more);
    }
  }

  /** The sync event: only the `sync-bookings` tag starts a pass. */
  method HandleSync(tag: string, pending: seq<Booking>, post: Booking -> NetOutcome) returns (r: Option<SyncResult>)
    ensures r.Some? <==> tag == "sync-bookings"
    ensures r.Some? && |pending| == 0 ==> r.value == SyncResult([], [], None)
    ensures r.Some? ==> |r.value.posted| <= |pending| && r.value.posted == pending[..|r.value.posted|]
    ensures r.Some? ==> (r.value.broadcast.Some? <==> |pending| > 0 && FetchedUpTo(pending, post, |pending|))
    ensures r.Some? && r.value.broadcast.Some? ==> r.value.posted == pending && r.value.broadcast.value == SyncComplete
    ensures r.Some? && r.value.broadcast.None? && |pending| > 0 ==>
      |r.value.posted| > 0 && FetchedUpTo(pending, post, |r.value.posted| - 1) && post(pending[|r.value.posted| - 1]).Threw?
    ensures r.Some? ==> r.value.queue == Unacked(pending, AckedIds(r.value.posted, post))
  {
    if tag == "sync-bookings" {
      var done := SyncBookings(pending, post);
      r := Some(done);
    } else {
      r := None;
    }
  }
}

=== FILE: sorting.dfy ===
/** Stable sorting by an integer key: the behaviour `Array.prototype.sort`
    has (it is required to be stable) when its comparator orders two
    elements by the sign of `key(a) - key(b)`. */
module Sorting {

  /** Keys never decrease from left to right. */
  predicate SortedBy<T>(s: seq<T>, key: T -> int) {
    forall i, j :: 0 <= i < j < |s| ==> key(s[i]) <= key(s[j])
  }

  /** The elements of `s` whose key is `k`, in their order in `s`. */
  function WithKey<T(!new)>(s: seq<T>, key: T -> int, k: int): (r: seq<T>)
    ensures |r| <= |s|
    ensures forall x :: x in r <==> x in s && key(x) == k
  {
    if |s| == 0 then []
    else if key(s[0]) == k then [s[0]] + WithKey(s[1..], key, k)
    else WithKey(s[1..], key, k)
  }

  /** `x` placed into `t` just before the first element whose key is not
      smaller, so that it follows every element with a smaller key. */
  function Insert<T>(x: T, t: seq<T>, key: T -> int): (r: seq<T>)
    ensures |r| == |t| + 1
  {
    if |t| == 0 || key(x) <= key(t[0]) then [x] + t
    else [t[0]] + Insert(x, t[1..], key)
  }

  lemma {:induction false} InsertPermutes<T>(x: T, t: seq<T>, key: T -> int)
    ensures multiset(Insert(x, t, key)) == multiset(t) + multiset{x}
  {
    if |t| > 0 && key(x) > key(t[0]) {
      InsertPermutes(x, t[1..], key);
      assert t == [t[0]] + t[1..];
    }
  }

  lemma {:induction false} InsertSorted<T>(x: T, t: seq<T>, key: T -> int)
    requires SortedBy(t, key)
    ensures SortedBy(Insert(x, t, key), key)
  {
    if |t| > 0 && key(x) > key(t[0]) {
      var rest := Insert(x, t[1..], key);
      InsertSorted(x, t[1..], key);
      InsertPermutes(x, t[1..], key);
      forall i | 0 <= i < |rest|
        ensures key(t[0]) <= key(rest[i])
      {
        assert rest[i] in multiset(rest);
        if rest[i] != x {
          assert rest[i] in multiset(t[1..]);
          var j :| 0 <= j < |t[1..]| && t[1..][j] == rest[i];
          assert t[j + 1] == rest[i];
        }
      }
      var r := [t[0]] + rest;
      assert forall i :: 0 < i < |r| ==> r[i] == rest[i - 1];
    }
  }

  /** The stable sort of `s` by `key`: each element in turn, from the
      last, inserted into the sorted rest. */
  function Sort<T>(s: seq<T>, key: T -> int): (r: seq<T>)
    ensures |r| == |s|
  {
    if |s| == 0 then [] else Insert(s[0], Sort(s[1..], key), key)
  }

  /** The sort is a permutation. */
  lemma {:induction false} SortPermutes<T>(s: seq<T>, key: T -> int)
    ensures multiset(Sort(s, key)) == multiset(s)
  {
    if |s| > 0 {
      SortPermutes(s[1..], key);
      InsertPermutes(s[0], Sort(s[1..], key), key);
      assert s == [s[0]] + s[1..];
    }
  }

  /** The sort orders by key. */
  lemma {:induction false} SortSorted<T>(s: seq<T>, key: T -> int)
    ensures SortedBy(Sort(s, key), key)
  {
    if |s| > 0 {
      SortSorted(s[1..], key);
      InsertSorted(s[0], Sort(s[1..], key), key);
    }
  }

  lemma {:induction false} InsertWithKey<T(!new)>(x: T, t: seq<T>, key: T -> int, k: int)
    ensures WithKey(Insert(x, t, key), key, k) == if key(x) == k then [x] + WithKey(t, key, k) else WithKey(t, key, k)
  {
    if |t| == 0 || key(x) <= key(t[0]) {
      assert ([x] + t)[1..] == t;
    } else {
      InsertWithKey(x, t[1..], key, k);
      assert ([t[0]] + Insert(x, t[1..], key))[1..] == Insert(x, t[1..], key);
      if key(x) == k {
        assert key(t[0]) != k;
      }
    }
  }

  /** Stability: the elements sharing any one key keep their relative
      order. */
  lemma {:induction false} SortIsStable<T(!new)>(s: seq<T>, key: T -> int, k: int)
    ensures WithKey(Sort(s, key), key, k) == WithKey(s, key, k)
  {
    if |s| > 0 {
      SortIsStable(s[1..], key, k);
      InsertWithKey(s[0], Sort(s[1..], key), key, k);
    }
  }

  /** Sorting an already sorted sequence changes nothing. */
  lemma {:induction false} SortOfSorted<T>(s: seq<T>, key: T -> int)
    requires SortedBy(s, key)
    ensures Sort(s, key) == s
  {
    if |s| > 0 {
      SortOfSorted(s[1..], key);
      assert Sort(s[1..], key) == s[1..];
      if |s| > 1 {
        assert key(s[0]) <= key(s[1]);
      }
      assert s == [s[0]] + s[1..];
    }
  }

  /** Insertion sort of six elements whose keys, read in the order
      3, 2, 5, 1, 4, 0, strictly increase. */
  lemma SortSix<T>(a: seq<T>, k: T -> int)
    requires |a| == 6
    requires k(a[3]) < k(a[2]) < k(a[5]) < k(a[1]) < k(a[4]) < k(a[0])
    ensures Sort(a, k) == [a[3], a[2], a[5], a[1], a[4], a[0]]
  {
    var x0, x1, x2, x3, x4, x5 := a[0], a[1], a[2], a[3], a[4], a[5];
    SortFive(x1, x2, x3, x4, x5, k);
    assert a == [x0] + [x1, x2, x3, x4, x5];
    SortCons(x0, [x1, x2, x3, x4, x5], k);
    InsertAtEnd(x0, [x3, x2, x5, x1, x4], k);
  }

  /** An element with a key above all others is inserted last. */
  lemma {:induction false} InsertAtEnd<T>(x: T, t: seq<T>, k: T -> int)
    requires forall i :: 0 <= i < |t| ==> k(t[i]) < k(x)
    ensures Insert(x, t, k) == t + [x]
  {
    if |t| > 0 {
      InsertAtEnd(x, t[1..], k);
      assert t == [t[0]] + t[1..];
    }
  }

  lemma SortFive<T>(x1: T, x2: T, x3: T, x4: T, x5: T, k: T -> int)
    requires k(x3) < k(x2) < k(x5) < k(x1) < k(x4)
    ensures Sort([x1, x2, x3, x4, x5], k) == [x3, x2, x5, x1, x4]
  {
    SortFour(x2, x3, x4, x5, k);
    assert [x1, x2, x3, x4, x5] == [x1] + [x2, x3, x4, x5];
    SortCons(x1, [x2, x3, x4, x5], k);
    InsertPast(x1, x3, [x2, x5, x4], k);
    InsertPast(x1, x2, [x5, x4], k);
    InsertPast(x1, x5, [x4], k);
    InsertFront(x1, [x4], k);
    assert [x3] + ([x2] + ([x5] + ([x1] + [x4]))) == [x3, x2, x5, x1, x4];
  }

  lemma SortFour<T>(x2: T, x3: T, x4: T, x5: T, k: T -> int)
    requires k(x3) < k(x2) < k(x5) < k(x4)
    ensures Sort([x2, x3, x4, x5], k) == [x3, x2, x5, x4]
  {
    SortThree(x3, x4, x5, k);
    assert [x2, x3, x4, x5] == [x2] + [x3, x4, x5];
    SortCons(x2, [x3, x4, x5], k);
    InsertPast(x2, x3, [x5, x4], k);
    InsertFront(x2, [x5, x4], k);
  }

  lemma SortThree<T>(x3: T, x4: T, x5: T, k: T -> int)
    requires k(x3) < k(x5) < k(x4)
    ensures Sort([x3, x4, x5], k) == [x3, x5, x4]
  {
    SortTwo(x4, x5, k);
    assert [x3, x4, x5] == [x3] + [x4, x5];
    SortCons(x3, [x4, x5], k);
    InsertFront(x3, [x5, x4], k);
  }

  lemma SortTwo<T>(x4: T, x5: T, k: T -> int)
    requires k(x5) < k(x4)
    ensures Sort([x4, x5], k) == [x5, x4]
  {
    assert Sort([x5], k) == [x5] by {
      SortCons(x5, [], k);
      InsertFront(x5, [], k);
    }
    assert [x4, x5] == [x4] + [x5];
    SortCons(x4, [x5], k);
    InsertPast(x4, x5, [], k);
    InsertFront(x4, [], k);
  }

  lemma SortCons<T>(x: T, t: seq<T>, k: T -> int)
    ensures Sort([x] + t, k) == Insert(x, Sort(t, k), k)
  {
    assert ([x] + t)[1..] == t;
    assert ([x] + t)[0] == x;
  }

  lemma InsertFront<T>(x: T, t: seq<T>, k: T -> int)
    requires |t| == 0 || k(x) <= k(t[0])
    ensures Insert(x, t, k) == [x] + t
  {
  }

  lemma InsertPast<T>(x: T, y: T, t: seq<T>, k: T -> int)
    requires k(x) > k(y)
    ensures Insert(x, [y] + t, k) == [y] + Insert(x, t, k)
  {
    assert ([y] + t)[1..] == t;
  }
}

=== FILE: text.dfy ===
/** The ECMAScript string primitives the front-end relies on: ASCII case
    folding (`toLowerCase` restricted to ASCII), `includes`, `trim` and the
    regular-expression class `\s`, and decimal rendering of non-negative
    integers (`Number.prototype.toString`). */
module Text {

  /** The code points `String.prototype.trim` removes and `\s` matches:
      ECMAScript WhiteSpace (TAB, VT, FF, SP, NBSP, ZWNBSP, category Zs)
      and LineTerminator (LF, CR, LS, PS). */
  predicate IsSpace(c: char) {
    var k := c as int;
    || k == 0x09 || k == 0x0A || k == 0x0B || k == 0x0C || k == 0x0D
    || k == 0x20 || k == 0xA0 || k == 0x1680 || (0x2000 <= k <= 0x200A)
    || k == 0x2028 || k == 0x2029 || k == 0x202F || k == 0x205F
    || k == 0x3000 || k == 0xFEFF
  }

  /** The class `[0-9]`; `\D` is its complement. */
  predicate IsDigit(c: char) {
    '0' <= c <= '9'
  }

  predicate NoSpace(s: string) {
    forall i :: 0 <= i < |s| ==> !IsSpace(s[i])
  }

  predicate AllDigits(s: string) {
    forall i :: 0 <= i < |s| ==> IsDigit(s[i])
  }

  // ---------------------------------------------------------------------
  // Case folding

  function LowerChar(c: char): char {
    if 'A' <= c <= 'Z' then (c as int + 32) as char else c
  }

  /** `toLowerCase`, restricted to the ASCII letters. */
  function Lower(s: string): (r: string)
    ensures |r| == |s|
    ensures forall i :: 0 <= i < |s| ==> r[i] == LowerChar(s[i])
  {
    seq(|s|, i requires 0 <= i < |s| => LowerChar(s[i]))
  }

  /** Lower-casing twice is lower-casing once: a query that is already
      lower case is left as it is. */
  lemma LowerIdempotent(s: string)
    ensures Lower(Lower(s)) == Lower(s)
  {
  }

  // ---------------------------------------------------------------------
  // Substring search

  predicate StartsWith(s: string, prefix: string) {
    |prefix| <= |s| && s[..|prefix|] == prefix
  }

  /** `hay.includes(needle)`, as a search from the left. */
  predicate Contains(hay: string, needle: string)
    decreases |hay|
  {
    StartsWith(hay, needle) || (|hay| > 0 && Contains(hay[1..], needle))
  }

  /** `needle` occurs in `hay` starting at index `i`. */
  ghost predicate OccursAt(hay: string, needle: string, i: int) {
    0 <= i && i + |needle| <= |hay| && hay[i..i + |needle|] == needle
  }

  /** The search finds `needle` exactly when it occurs somewhere. */
  lemma {:induction false} ContainsIffOccurs(hay: string, needle: string)
    ensures Contains(hay, needle) <==> exists i :: OccursAt(hay, needle, i)
    decreases |hay|
  {
    if StartsWith(hay, needle) {
      assert OccursAt(hay, needle, 0);
    } else if |hay| > 0 {
      ContainsIffOccurs(hay[1..], needle);
      if Contains(hay[1..], needle) {
        var i :| OccursAt(hay[1..], needle, i);
        assert hay[i + 1..i + 1 + |needle|] == hay[1..][i..i + |needle|];
        assert OccursAt(hay, needle, i + 1);
      }
      if exists i :: OccursAt(hay, needle, i) {
        var i :| OccursAt(hay, needle, i);
        assert i != 0;
        assert hay[1..][i - 1..i - 1 + |needle|] == hay[i..i + |needle|];
        assert OccursAt(hay[1..], needle, i - 1);
      }
    }
  }

  /** The empty string occurs in every string. */
  lemma ContainsEmpty(hay: string)
    ensures Contains(hay, [])
  {
    assert StartsWith(hay, []);
  }

  /** Every character of a string found in `hay` is a character of `hay`. */
  lemma ContainsCarries(hay: string, needle: string, c: char)
    requires Contains(hay, needle)
    requires c in needle
    ensures c in hay
  {
    ContainsIffOccurs(hay, needle);
    var i :| OccursAt(hay, needle, i);
    var k :| 0 <= k < |needle| && needle[k] == c;
    assert hay[i + k] == hay[i..i + |needle|][k];
  }

  /** Whatever contains a string contains each of its prefixes. */
  lemma ContainsPrefix(hay: string, needle: string, k: nat)
    requires Contains(hay, needle)
    requires k <= |needle|
    ensures Contains(hay, needle[..k])
  {
    ContainsIffOccurs(hay, needle);
    var i :| OccursAt(hay, needle, i);
    assert hay[i..i + k] == hay[i..i + |needle|][..k];
    assert OccursAt(hay, needle[..k], i);
    ContainsIffOccurs(hay, needle[..k]);
  }

  /** A single character is found exactly when it is one of `hay`'s. */
  lemma ContainsChar(hay: string, c: char)
    ensures Contains(hay, [c]) <==> c in hay
  {
    ContainsIffOccurs(hay, [c]);
    if c in hay {
      var k :| 0 <= k < |hay| && hay[k] == c;
      assert OccursAt(hay, [c], k);
    }
    if Contains(hay, [c]) {
      ContainsCarries(hay, [c], c);
    }
  }

  // ---------------------------------------------------------------------
  // Trimming and whitespace removal

  function TrimStart(s: string): (r: string)
    ensures |r| <= |s| && r == s[|s| - |r|..]
    ensures forall i :: 0 <= i < |s| - |r| ==> IsSpace(s[i])
    ensures r == [] || !IsSpace(r[0])
  {
    if |s| > 0 && IsSpace(s[0]) then TrimStart(s[1..]) else s
  }

  function TrimEnd(s: string): (r: string)
    ensures |r| <= |s| && r == s[..|r|]
    ensures forall i :: |r| <= i < |s| ==> IsSpace(s[i])
    ensures r == [] || !IsSpace(r[|r| - 1])
  {
    if |s| > 0 && IsSpace(s[|s| - 1]) then TrimEnd(s[..|s| - 1]) else s
  }

  /** `r` is `s` with its leading and trailing white space cut off: a slice
      of `s`, with only white space outside it and none at its ends. */
  ghost predicate IsTrimAt(s: string, r: string, a: int) {
      && 0 <= a && a + |r| <= |s|
      && s[a..a + |r|] == r
      && (forall i :: 0 <= i < a ==> IsSpace(s[i]))
      && (forall i :: a + |r| <= i < |s| ==> IsSpace(s[i]))
      && (r == [] || (!IsSpace(r[0]) && !IsSpace(r[|r| - 1])))
  }

  ghost predicate IsTrimOf(s: string, r: string) {
    exists a :: IsTrimAt(s, r, a)
  }

  /** `String.prototype.trim`. */
  function Trim(s: string): (r: string)
    ensures IsTrimOf(s, r)
  {
    var t := TrimStart(s);
    var r := TrimEnd(t);
    TrimShape(s, t, r);
    r
  }

  /** Leading white space cut off to give `t`, then trailing white space
      cut off `t` to give `r`: `r` is a trim of `s`. */
  lemma TrimShape(s: string, t: string, r: string)
    requires |t| <= |s| && t == s[|s| - |t|..]
    requires forall i :: 0 <= i < |s| - |t| ==> IsSpace(s[i])
    requires t == [] || !IsSpace(t[0])
    requires |r| <= |t| && r == t[..|r|]
    requires forall i :: |r| <= i < |t| ==> IsSpace(t[i])
    requires r == [] || !IsSpace(r[|r| - 1])
    ensures IsTrimAt(s, r, |s| - |t|)
  {
    var a := |s| - |t|;
    assert s[a..a + |r|] == r;
    forall i | a + |r| <= i < |s|
      ensures IsSpace(s[i])
    {
      assert s[i] == t[i - a];
    }
    if r != [] {
      assert r[0] == t[0];
    }
  }

  /** A string trims to nothing exactly when it is all white space. */
  lemma TrimEmptyIffAllSpace(s: string)
    ensures Trim(s) == [] <==> forall i :: 0 <= i < |s| ==> IsSpace(s[i])
  {
  }

  /** `s.replace(/\s/g, '')`. */
  function StripSpaces(s: string): (r: string)
    ensures NoSpace(r)
    ensures |r| <= |s|
  {
    if |s| == 0 then []
    else if IsSpace(s[0]) then StripSpaces(s[1..])
    else [s[0]] + StripSpaces(s[1..])
  }

  /** Removing white space from a string that has none changes nothing. */
  lemma {:induction false} StripSpacesOfNoSpace(s: string)
    requires NoSpace(s)
    ensures StripSpaces(s) == s
  {
    if |s| > 0 {
      StripSpacesOfNoSpace(s[1..]);
    }
  }

  lemma {:induction false} StripSpacesAppend(a: string, b: string)
    ensures StripSpaces(a + b) == StripSpaces(a) + StripSpaces(b)
  {
    if |a| > 0 {
      assert (a + b)[1..] == a[1..] + b;
      StripSpacesAppend(a[1..], b);
    } else {
      assert a + b == b;
    }
  }

  /** `s.replace(/\D/g, '')`. */
  function KeepDigits(s: string): (r: string)
    ensures AllDigits(r)
    ensures |r| <= |s|
  {
    if |s| == 0 then []
    else if IsDigit(s[0]) then [s[0]] + KeepDigits(s[1..])
    else KeepDigits(s[1..])
  }

  /** Dropping non-digits from a string of digits changes nothing. */
  lemma {:induction false} KeepDigitsOfDigits(s: string)
    requires AllDigits(s)
    ensures KeepDigits(s) == s
  {
    if |s| > 0 {
      KeepDigitsOfDigits(s[1..]);
    }
  }

  lemma {:induction false} KeepDigitsAppend(a: string, b: string)
    ensures KeepDigits(a + b) == KeepDigits(a) + KeepDigits(b)
  {
    if |a| > 0 {
      assert (a + b)[1..] == a[1..] + b;
      KeepDigitsAppend(a[1..], b);
    } else {
      assert a + b == b;
    }
  }

  // ---------------------------------------------------------------------
  // Decimal numbers

  function Pow10(k: nat): (r: nat)
    ensures r >= 1
  {
    if k == 0 then 1 else 10 * Pow10(k - 1)
  }

  function DigitChar(d: nat): (c: char)
    requires d < 10
    ensures IsDigit(c)
  {
    ('0' as int + d) as char
  }

  function DigitValue(c: char): (d: nat)
    requires IsDigit(c)
    ensures d < 10
  {
    c as int - '0' as int
  }

  /** `n.toString()` for a non-negative integer: no sign, no leading zero. */
  function Decimal(n: nat): (r: string)
    ensures |r| >= 1 && AllDigits(r)
    decreases n
  {
    if n < 10 then [DigitChar(n)] else Decimal(n / 10) + [DigitChar(n % 10)]
  }

  /** The value of a string of decimal digits (the empty string reads 0). */
  function ParseDecimal(s: string): nat
    requires AllDigits(s)
  {
    if |s| == 0 then 0 else 10 * ParseDecimal(s[..|s| - 1]) + DigitValue(s[|s| - 1])
  }

  /** Reading back a rendered number gives the number. */
  lemma {:induction false} DecimalRoundTrip(n: nat)
    ensures ParseDecimal(Decimal(n)) == n
    decreases n
  {
    if n >= 10 {
      DecimalRoundTrip(n / 10);
      var d := Decimal(n);
      assert d[..|d| - 1] == Decimal(n / 10);
    }
  }

  /** A number has more than `k` digits exactly when it is at least 10^k. */
  lemma {:induction false} DecimalLength(n: nat, k: nat)
    requires k > 0
    ensures |Decimal(n)| > k <==> n >= Pow10(k)
    decreases n
  {
    Pow10Grows(k);
    if n >= 10 {
      assert |Decimal(n)| == |Decimal(n / 10)| + 1;
      if k > 1 {
        DecimalLength(n / 10, k - 1);
      } else {
        assert |Decimal(n / 10)| >= 1;
      }
      DivTenBound(n, Pow10(k - 1));
    } else {
      assert |Decimal(n)| == 1;
    }
  }

  lemma DivTenBound(n: nat, p: nat)
    ensures n / 10 >= p <==> n >= 10 * p
  {
  }

  lemma {:induction false} Pow10Grows(k: nat)
    requires k > 0
    ensures Pow10(k) >= 10
  {
    if k > 1 {
      Pow10Grows(k - 1);
    }
  }

  /** Leading zeros do not change the value read. */
  lemma {:induction false} ParseLeadingZeros(z: string, s: string)
    requires forall i :: 0 <= i < |z| ==> z[i] == '0'
    requires AllDigits(s)
    ensures AllDigits(z + s)
    ensures ParseDecimal(z + s) == ParseDecimal(s)
    decreases |s| + |z|
  {
    assert AllDigits(z + s) by {
      forall i | 0 <= i < |z + s|
        ensures IsDigit((z + s)[i])
      {
        if i < |z| { assert (z + s)[i] == z[i]; } else { assert (z + s)[i] == s[i - |z|]; }
      }
    }
    if |s| > 0 {
      assert (z + s)[..|z + s| - 1] == z + s[..|s| - 1];
      ParseLeadingZeros(z, s[..|s| - 1]);
    } else if |z| > 0 {
      assert z + s == z;
      assert (z + s)[..|z + s| - 1] == z[..|z| - 1] + [];
      ParseLeadingZeros(z[..|z| - 1], []);
    }
  }

  /** `s.slice(-k)` for `k > 0`: the last `k` characters, or all of `s`. */
  function LastChars(s: string, k: nat): (r: string)
    ensures |r| == if |s| <= k then |s| else k
    ensures r == s[|s| - |r|..]
  {
    if |s| <= k then s else s[|s| - k..]
  }

  lemma LastCharsDigits(s: string, k: nat)
    requires AllDigits(s)
    ensures AllDigits(LastChars(s, k))
  {
    var t := LastChars(s, k);
    forall i | 0 <= i < |t|
      ensures IsDigit(t[i])
    {
      assert t[i] == s[|s| - |t| + i];
    }
  }

  /** Reading a string that ends in digit `c` shifts the rest by one place. */
  lemma ParseSnoc(u: string, c: char)
    requires AllDigits(u) && IsDigit(c)
    ensures AllDigits(u + [c])
    ensures ParseDecimal(u + [c]) == 10 * ParseDecimal(u) + DigitValue(c)
  {
    assert (u + [c])[..|u|] == u;
  }

  /** The last `k` digits of `n` read back as `n` modulo 10^k. */
  lemma LastDigitsAreRemainder(n: nat, k: nat)
    ensures AllDigits(LastChars(Decimal(n), k))
    ensures ParseDecimal(LastChars(Decimal(n), k)) == n % Pow10(k)
  {
    var head := SplitDecimal(n, k);
    var t := LastChars(Decimal(n), k);
    if |Decimal(n)| > k {
      assert |t| == k;
      ModUnique(n, Pow10(k), head, ParseDecimal(t));
    } else {
      DecimalLength(n, k);
      ModUnique(n, Pow10(k), 0, n);
    }
  }

  /** `n` is its leading digits, worth `head`, shifted past its last `k`
      digits. */
  lemma SplitDecimal(n: nat, k: nat) returns (head: nat)
    ensures AllDigits(LastChars(Decimal(n), k))
    ensures var t := LastChars(Decimal(n), k);
            && n == Pow10(|t|) * head + ParseDecimal(t)
            && ParseDecimal(t) < Pow10(|t|)
            && (|Decimal(n)| <= k ==> k > 0 && t == Decimal(n) && ParseDecimal(t) == n)
  {
    var d := Decimal(n);
    var t := LastChars(d, k);
    var p := d[..|d| - |t|];
    assert d == p + t;
    LastCharsDigits(d, k);
    assert AllDigits(p) by {
      forall i | 0 <= i < |p|
        ensures IsDigit(p[i])
      {
        assert p[i] == d[i];
      }
    }
    ParseAppend(p, t);
    DecimalRoundTrip(n);
    ParseBound(t);
    head := ParseDecimal(p);
  }

  /** Digits side by side: the left part counts in units of 10^|right|. */
  lemma {:induction false} ParseAppend(p: string, q: string)
    requires AllDigits(p) && AllDigits(q)
    ensures AllDigits(p + q)
    ensures ParseDecimal(p + q) == Pow10(|q|) * ParseDecimal(p) + ParseDecimal(q)
  {
    assert AllDigits(p + q) by {
      forall i | 0 <= i < |p + q|
        ensures IsDigit((p + q)[i])
      {
        if i < |p| { assert (p + q)[i] == p[i]; } else { assert (p + q)[i] == q[i - |p|]; }
      }
    }
    if |q| == 0 {
      assert p + q == p;
    } else {
      var u, c := q[..|q| - 1], q[|q| - 1];
      assert q == u + [c];
      assert AllDigits(u) by {
        forall i | 0 <= i < |u|
          ensures IsDigit(u[i])
        {
          assert u[i] == q[i];
        }
      }
      ParseAppend(p, u);
      assert p + q == (p + u) + [c];
      ParseSnoc(p + u, c);
      ParseSnoc(u, c);
      var a, w, r := ParseDecimal(p), Pow10(|u|), ParseDecimal(u);
      assert ParseDecimal(p + q) == 10 * (w * a + r) + DigitValue(c);
      MulTen(a, w);
    }
  }

  lemma MulTen(a: int, w: int)
    ensures 10 * (w * a) == (10 * w) * a
  {
  }

  /** A string of `k` digits reads as less than 10^k. */
  lemma {:induction false} ParseBound(s: string)
    requires AllDigits(s)
    ensures ParseDecimal(s) < Pow10(|s|)
  {
    if |s| > 0 {
      var u := s[..|s| - 1];
      assert AllDigits(u) by {
        forall i | 0 <= i < |u|
          ensures IsDigit(u[i])
        {
          assert u[i] == s[i];
        }
      }
      ParseBound(u);
    }
  }

  lemma ModUnique(n: int, m: int, a: int, b: int)
    requires m > 0 && 0 <= b < m && n == m * a + b
    ensures n % m == b
  {
    var a' := n / m;
    var b' := n % m;
    assert n == m * a' + b';
    var d := a - a';
    assert m * d == b' - b by {
      assert m * a - m * a' == m * (a - a');
    }
    if d > 0 {
      MulAtLeast(m, d);
    } else if d < 0 {
      MulAtLeast(m, -d);
    }
  }

  lemma {:induction false} MulAtLeast(m: int, d: int)
    requires m > 0 && d >= 1
    ensures m * d >= m
    decreases d
  {
    if d > 1 {
      MulAtLeast(m, d - 1);
      assert m * d == m * (d - 1) + m;
    }
  }

  /** `s.padStart(width, '0')`. */
  function PadZeros(s: string, width: nat): (r: string)
    ensures |r| == if |s| >= width then |s| else width
    ensures r[|r| - |s|..] == s
    ensures forall i :: 0 <= i < |r| - |s| ==> r[i] == '0'
  {
    if |s| >= width then s else seq(width - |s|, _ => '0') + s
  }
}

=== FILE: validation.dfy ===
/** Ordered form validation: the front-end's handlers test a fixed list of
    conditions in order and report only the first one that fails. */
module Validation {
  import opened Optional

  datatype Check<E> = Check(passes: bool, error: E)

  /** Check `i` is the first failing one. */
  predicate FailsFirstAt<E>(checks: seq<Check<E>>, i: int) {
    && 0 <= i < |checks|
    && !checks[i].passes
    && forall j :: 0 <= j < i ==> checks[j].passes
  }

  /** The error of the first failing check, or `None` when all pass. */
  function FirstFailure<E(==)>(checks: seq<Check<E>>): (r: Option<E>)
    ensures r.None? <==> forall i :: 0 <= i < |checks| ==> checks[i].passes
    ensures r.Some? ==> exists i :: FailsFirstAt(checks, i) && checks[i].error == r.value
  {
    if |checks| == 0 then None
    else if !checks[0].passes then
      assert FailsFirstAt(checks, 0);
      Some(checks[0].error)
    else
      var r := FirstFailure(checks[1..]);
      if r.Some? then
        var i :| FailsFirstAt(checks[1..], i) && checks[1..][i].error == r.value;
        assert FailsFirstAt(checks, i + 1);
        r
      else
        r
  }

  /** The first failing check is unique: its error is the one reported. */
  lemma FirstFailureAt<E>(checks: seq<Check<E>>, i: int)
    requires FailsFirstAt(checks, i)
    ensures FirstFailure(checks) == Some(checks[i].error)
  {
    var r := FirstFailure(checks);
    var k :| FailsFirstAt(checks, k) && checks[k].error == r.value;
    assert k == i;
  }

  /** Four checks in a row: each failure is reported only when the checks
      before it pass. */
  lemma FirstFailureOfFour<E>(checks: seq<Check<E>>)
    requires |checks| == 4
    ensures !checks[0].passes ==> FirstFailure(checks) == Some(checks[0].error)
    ensures checks[0].passes && !checks[1].passes ==> FirstFailure(checks) == Some(checks[1].error)
    ensures (checks[0].passes && checks[1].passes && !checks[2].passes) ==>
              FirstFailure(checks) == Some(checks[2].error)
    ensures (checks[0].passes && checks[1].passes && checks[2].passes && !checks[3].passes) ==>
              FirstFailure(checks) == Some(checks[3].error)
  {
    if !checks[0].passes {
      FirstFailureAt(checks, 0);
    } else if !checks[1].passes {
      FirstFailureAt(checks, 1);
    } else if !checks[2].passes {
      FirstFailureAt(checks, 2);
    } else if !checks[3].passes {
      FirstFailureAt(checks, 3);
    }
  }
}
